=== FILE: README.md ===
# RAID-5 with Hamming(12,8) ECC — a Dafny model

This project models the reliability engine of the RAID-5 simulation in
`SW_simulation/main.py` and proves properties of it. The engine has three
disks, six stripes per disk, and twelve-bit blocks.

- **The Hamming(12,8) code.** Payload bits sit at indices 2, 4, 5, 6, 8, 9,
  10 and 11. Parity bits sit at 0, 1, 3 and 7. The check computes the
  syndrome `P1 + 2*P2 + 4*P4 + 8*P8`, and the fix flips index `S - 1`.
- **Placement.**
  - The stripe is `address & 7`.
  - The parity disk is `(stripe - 1) % 3`.
  - The two data disks are the other two, in ascending order.
  - The parity block is the bitwise XOR of the two data blocks.
- **The write pipeline.** It encodes the upper and lower payload bytes and
  then picks one of three actions:
  - An identical write is skipped.
  - On a valid stripe, it writes the new parity plus whichever half alone
    changed, or plus both halves.
  - On an invalid stripe, it does a full-stripe write.

  It also keeps the per-disk and per-block write counters.
- **The read pipeline.** It refreshes the failed-disk count from the disk
  health.
  - Two or more failed disks stop the program in an endless wait.
  - One failed disk is rebuilt by XOR from the other two.
  - After that, each data block is checked and, if a single-bit error is
    found, fixed and written back. The two bytes are then decoded and
    joined.
- **The bounded FIFO request buffers** and `reset_disk`.

The model is functional. One immutable `Raid.State` record holds:
- the disks;
- the validity flags;
- the disk health;
- the cached failure count `num_of_fail_disks`;
- the two buffers;
- the two ready flags;
- the counters.

Every handler is a pure function of that record. Python raises an uncaught
`IndexError`, calls `sys.exit`, or waits forever. Each of these ends the
run, so the model returns `Halt(fault)` for them.

Modules follow the parts of the engine:
- `Faults`: the outcome type.
- `Hamming`: the code.
- `Storage`: the disk array, placement, health and counters.
- `Fifo`: the buffers.
- `Raid`: the state and its steps.
- `WriteProps` and `ReadProps`: properties of each pipeline.
- `Invariants`: properties of whole runs of events.

Source behaviour kept as written:
- Every stripe starts valid (line 19). The full-stripe write at 188-236
  runs only on a stripe whose validity flag is cleared, and no step clears
  one (`Invariants.ReachableWritesSelective`).
- The write handler starts disabled (line 27). The read handler starts
  enabled (line 28).
- The write path tests the cached `num_of_fail_disks`. Only the read path
  and the recovery refresh it. The failure wait only clears the count: it
  does not repair or rebuild anything.
- When only D1 changed and the parity lives on disk 2, disks 2 and 1 are
  written but disks 0 and 1 are charged (`WriteProps.CounterQuirk`).
- A syndrome of 0 given to the fix indexes `-1` and flips the last bit. A
  syndrome of 13 to 15, which two flipped bits can produce, raises
  `IndexError`.
- Addresses whose low three bits are 6 or 7 raise `IndexError`.
  - On a write this happens at the validity lookup.
  - On a read it happens only after the failure check and any recovery,
    when the data blocks are fetched.
- `RAID5_recovery` on its own:
  - with no failed disk it raises `IndexError`;
  - with two or more failed disks it exits if the cached count is
    positive, and otherwise returns without doing anything.

`Invariants` shows that two write branches are never reached from the
initial state under the program's own steps: the failure wait
(`handle_system_failure`) and the full-stripe write of an invalid stripe.
This holds because the cached count is zero after every completed step and
no step clears a validity flag. So the selective update is the only write
that ever changes blocks. As long as no reset or bit flip destroys data,
every stripe also keeps the parity identity with codewords as data, and a
read never rewrites a block.

## Model

| member | source | states |
|---|---|---|
| Hamming.Encode | SW_simulation/main.py:91-107 | The encoding of every byte passes the parity re-check: its syndrome is 0. |
| Hamming.Syndrome | SW_simulation/main.py:400-410 | The syndrome of any block is below 16. |
| Hamming.Check | SW_simulation/main.py:400-416 | A block is reported "No Error" exactly when it is the encoding of the byte it decodes to; every other block is "SBE". |
| Hamming.PyIndex | SW_simulation/main.py:429 | A Python list index is accepted exactly in -n..n-1; negative indices count from the end. |
| Hamming.Fix | SW_simulation/main.py:418-431 | A syndrome in 1..12 flips bit S-1 and leaves syndrome 0. A syndrome of 0 flips the last bit and leaves syndrome 12. A syndrome above 12 halts with IndexError. |
| Hamming.DecodeEncode | SW_simulation/main.py:433-437 | Decoding the encoding of any byte gives the byte back. |
| Hamming.CodewordIffSyndromeZero | SW_simulation/main.py:400-416 | The syndrome is 0 exactly on the 256 codewords. |
| Hamming.FlipSyndrome | SW_simulation/main.py:402-410 | Flipping bit p of a codeword gives syndrome p+1, the 1-indexed position of the flipped bit. |
| Hamming.FlipAtSyndromeClears | SW_simulation/main.py:428-429 | For any block whose syndrome is in 1..12, flipping the bit the syndrome names gives syndrome 0. |
| Hamming.Correct | SW_simulation/main.py:521-531 | Check-then-fix completes exactly when the syndrome is at most 12. The result then passes the check. A clean block is returned unchanged, and a block reported as SBE comes back with bit S-1 flipped. |
| Hamming.FixSingleBitError | SW_simulation/main.py:410-431 | A codeword with one flipped bit is reported as SBE, and the fix returns the original codeword. |
| Hamming.CorrectWithinOneBit | SW_simulation/main.py:521-534 | Any block within one bit of the encoding of x is corrected to that encoding and decodes to x. |
| Hamming.DoubleErrorMiscorrected | SW_simulation/main.py:418-431 | Two flipped bits can pass for one: the encoding of 0 with bits 0 and 1 flipped is "fixed" to a block that decodes to 0x80. |
| Hamming.DoubleErrorOutOfRange | SW_simulation/main.py:428-429 | Two flipped bits can give syndrome 13, and the fix then raises IndexError. |
| Storage.XorBlocks | SW_simulation/main.py:88-89 | Each bit of the result is the XOR of the bits at the same index. |
| Storage.XorRecovers | SW_simulation/main.py:458-459 | XOR-ing any two of a, b and a XOR b gives the third, in either order. |
| Storage.StripeOf | SW_simulation/main.py:154 | The stripe is in 0..7 and agrees with the address modulo 8, negative addresses included. |
| Storage.ParityRotation | SW_simulation/main.py:155 | Parity rotates 2, 0, 1, 2, 0, 1 over the six stripes, so each disk holds the parity of exactly two stripes. |
| Storage.IndexOf | SW_simulation/main.py:159 | The result is the position of the first occurrence of the value. |
| Storage.RemoveFirst | SW_simulation/main.py:158-159 | `list.remove` drops exactly one occurrence of the value: the multiset loses one copy and the length drops by one. |
| Storage.Without | SW_simulation/main.py:457 | The comprehension keeps exactly the elements other than the excluded value. |
| Storage.DataDisksTable | SW_simulation/main.py:158-159 | Removing the parity disk from [0, 1, 2] leaves D0 and D1 of the read path's table, in that order. |
| Storage.OtherDisksTable | SW_simulation/main.py:457 | The comprehension without the failed disk lists the disks the read path's table names D0 and D1 when that disk holds parity. |
| Storage.PlacementAgrees | SW_simulation/main.py:484-494 | The write path's data disks, the rebuild's healthy disks and the read path's D0/D1/P0 table agree for every parity disk. The three roles are distinct. |
| Storage.FailedDisks | SW_simulation/main.py:444 | The failed disks are listed in ascending order, each exactly once. |
| Storage.CountFailed | SW_simulation/main.py:497 | The count is at most 3, and it is 0 exactly when every disk is healthy. |
| Storage.SingleFailure | SW_simulation/main.py:444-464 | With exactly one failed disk f, the failed list is [f], and marking f healthy brings the count to 0. |
| Storage.CountOne | SW_simulation/main.py:452 | A count of one means the first listed disk is the failed one and every other disk is healthy. |
| Storage.ResetDisk | SW_simulation/main.py:542-555 | An in-range disk has every block zeroed; an out-of-range index changes nothing; other disks keep their blocks. |
| Storage.InjectBitFlip | SW_simulation/main.py:577 | The chosen cell becomes its old block with the requested bit flipped, so it differs in exactly that bit; every other cell is unchanged. |
| Storage.Charge | SW_simulation/main.py:268-272 | One write is counted against one disk and one block; every other counter is unchanged and the total grows by one. |
| Fifo.Enqueue | SW_simulation/main.py:115-129 | A request is rejected exactly when the count has reached the buffer size, and then nothing changes. Otherwise it is appended at the end. The bound is preserved. |
| Fifo.Dequeue | SW_simulation/main.py:109-113 | The served request is the head; the rest keep their order and the count drops by one. |
| Fifo.FifoOrder | SW_simulation/main.py:109-129 | Enqueueing then serving gives the same head as serving first, and the new request queues behind the rest. |
| Fifo.EnqueueAllKeepsPrefix | SW_simulation/main.py:115-129 | Offering several requests keeps the first k of them in order, where k is the free room, and rejects exactly the rest. |
| Fifo.OverflowRejectsLast | SW_simulation/main.py:120-122 | Offering capacity+1 requests to an empty buffer accepts the first capacity of them and rejects the last. |
| Raid.Init | SW_simulation/main.py:6-36 | At start-up every block is the encoding of 0 and every stripe is valid with the parity identity holding. No disk has failed, both buffers are empty with the given capacities, writes are disabled and reads enabled, and every per-disk and per-block write counter is 0. |
| Raid.ZeroBlockIsCodeword | SW_simulation/main.py:16 | The all-zero block is the encoding of 0 and its own parity. |
| Raid.Roles | SW_simulation/main.py:489-494 | The parity role is the rotating parity disk; D0 comes before D1, and neither is the parity disk. |
| Raid.JoinSplit | SW_simulation/main.py:143-144 | Splitting 16-bit data into bytes and joining them with `(D0 << 8) \| D1` is lossless in both directions. |
| Raid.AddWrite | SW_simulation/main.py:115-129 | A write request is rejected exactly when the buffer is full, and then the state is unchanged. Otherwise it is appended and nothing else changes. |
| Raid.EnableHandlers | SW_simulation/main.py:720-721 | Both handlers become ready and nothing else changes. |
| Raid.HandleSystemFailure | SW_simulation/main.py:244-251 | The failure wait clears the cached failure count and changes nothing else: not the disk health and not the data. |
| Raid.WriteToDisks | SW_simulation/main.py:180-239 | On an invalid stripe, D0 and D1 are stored, the parity identity holds and the stripe becomes valid. Every disk's counter and its block counter for the stripe grow by exactly one. On a valid stripe nothing happens. Other stripes' blocks and block counters and the control state are untouched. |
| Raid.NewParity | SW_simulation/main.py:241-242 | The new parity XOR-ed with either data block gives back the other. |
| Raid.ChargeAll | SW_simulation/main.py:262-368 | Each disk's counter and its block counter for the stripe grow by the number of times the disk is listed. The total grows by the length of the list, and other stripes' block counters are unchanged. |
| Raid.SelectiveStore | SW_simulation/main.py:253-368 | The new parity is stored, and a data block is stored unless the other half alone changed; other stripes are untouched. |
| Raid.SelectiveWrite | SW_simulation/main.py:253-373 | The blocks of the selective update are stored. Each disk is charged once per occurrence in the branch's charge list, against this stripe only. The stripe becomes valid. Other stripes and the control state are untouched. |
| Raid.UpdateValidStripe | SW_simulation/main.py:157-173 | A write of identical data leaves the state as it was. Any other write leaves the new blocks stored with the parity identity holding. Other stripes, validity and the control state are untouched. |
| Raid.ApplyWrite | SW_simulation/main.py:157-175 | Afterwards the stripe stores the new blocks and is valid. The parity identity holds unless the write was skipped, and a skip changes nothing. Other stripes' blocks and block counters are untouched. |
| Raid.HandleWrite | SW_simulation/main.py:131-178 | A disabled handler or an empty buffer changes nothing. Otherwise the head is served. It halts with IndexError exactly when its stripe is 6 or 7. On completion the head has left the buffer, the stripe stores the request's data, and no other stripe's blocks or block counters changed. |
| Raid.Survivors | SW_simulation/main.py:457 | The two disks a rebuild reads are the entries of the comprehension over [0, 1, 2] without the failed disk: distinct from it and in ascending order. |
| Raid.RebuildFrom | SW_simulation/main.py:456-460 | From stripe s on, every block of the failed disk is the XOR of the survivors' blocks. Earlier blocks and the other disks are untouched. |
| Raid.RebuildDisk | SW_simulation/main.py:452-464 | Every block of the failed disk becomes the XOR of the survivors' blocks, valid stripe or not. The disk is marked healthy and the refreshed count is 0. Nothing else changes. |
| Raid.Recover | SW_simulation/main.py:439-467 | With no failed disk it raises IndexError. With more than one it exits when the cached count is positive and otherwise changes nothing. With exactly one it rebuilds that disk. |
| Raid.AddRead | SW_simulation/main.py:375-387 | A read request is rejected exactly when the buffer is full, and then the state is unchanged. Otherwise it is appended and nothing else changes. |
| Raid.Scrub | SW_simulation/main.py:518-531 | Checking and fixing one data block completes exactly when its syndrome is at most 12. A block reported as SBE is replaced by itself with bit S-1 flipped, which is clean and is the one returned. A clean block is not rewritten, and no other cell changes. |
| Raid.ReadStripe | SW_simulation/main.py:518-536 | The read completes exactly when both data syndromes are at most 12. Each data block is replaced by its check-then-fix result. The reply is the join of the decodings of those clean blocks. The parity block and every other stripe are unchanged. |
| Raid.HandleRead | SW_simulation/main.py:475-540 | A disabled handler or an empty buffer changes nothing. Two or more failed disks mean the endless wait. Stripe 6 or 7 halts. A completed read leaves both data blocks of the stripe clean and returns the join of their decodings. It removes the head and leaves no disk failed and a zero cached count. |
| Raid.FailDisk | SW_simulation/main.py:774 | One disk is marked failed; its data and everything else are untouched. |
| Raid.ResetDiskStep | SW_simulation/main.py:542-555 | reset_disk zeroes one in-range disk; every other disk and all control state are untouched. |
| Raid.FlipStep | SW_simulation/main.py:577 | The chosen cell becomes its old block with bit p flipped; every other cell and all control state are untouched. |
| WriteProps.WriteKeepsParity | SW_simulation/main.py:157-175 | A served write to an existing stripe completes and stores the request's data. If it changed any block the parity identity holds. No other stripe's blocks or validity change. |
| WriteProps.UpdateIsSelective | SW_simulation/main.py:166-173 | A non-identical write to a valid stripe is the selective update of the old data blocks, with the cached failure count cleared first. |
| WriteProps.WriteAmplification | SW_simulation/main.py:262-368 | Identical data changes no block or counter. One changed half writes parity plus that half, keeps the other block, and counts 2. Both changed writes all three blocks and counts 3. WriteCharges says which disks are charged. |
| WriteProps.WriteCharges | SW_simulation/main.py:262-368 | The per-disk and per-block counters a write to a valid stripe moves. Only D0 changed: parity and D0 once each, D1 not at all. Only D1 changed: D1 once, and, unless parity is on disk 2, parity once and D0 not at all. Both changed: every disk once. No other stripe's counters move. |
| WriteProps.ChargeCounts | SW_simulation/main.py:262-368 | How many disks each branch charges (2 when exactly one half changed, otherwise 3), and how often its charge list names the parity disk, D0 and D1. |
| WriteProps.SelectiveCharged | SW_simulation/main.py:262-368 | The per-disk and per-block charges of WriteCharges, for the selective update itself. |
| WriteProps.CounterQuirk | SW_simulation/main.py:284-292 | With parity on disk 2 and only D1 changed, disks 2 and 1 are written but disks 0 and 1 are charged, per disk and per block. Disk 2's counters do not move. |
| WriteProps.WriteIdempotent | SW_simulation/main.py:166-167 | Writing the same blocks to the same stripe twice leaves the state the first write left. |
| WriteProps.RepeatedWriteSkipped | SW_simulation/main.py:134-177 | Two identical queued requests: serving the second only removes it from the buffer. |
| WriteProps.LowerByteUpdate | SW_simulation/main.py:744-747 | Rewriting a stored value with the same upper byte touches only the parity block and D1 and counts two writes. |
| ReadProps.XorOfSurvivors | SW_simulation/main.py:456-460 | In a stripe satisfying the parity identity, the XOR of any two disks' blocks is the third disk's block, whichever role the third plays. |
| ReadProps.RecoveryRestores | SW_simulation/main.py:439-467 | If the parity identity held everywhere before the failed disk's contents were lost (zeroed by reset_disk, say), the rebuild restores the original array exactly. |
| ReadProps.ScrubWithinOneBit | SW_simulation/main.py:521-525 | A data block within one bit of the encoding of v is stored back and returned as that encoding. |
| ReadProps.HealthyReadIsReadStripe | SW_simulation/main.py:515-536 | With every disk healthy and an existing stripe, a served read is the stripe read of the state with the head removed and the count refreshed to 0. |
| ReadProps.ReadStripeCorrects | SW_simulation/main.py:518-536 | Data blocks each within one bit of the encodings of x read back as x, and the corrected encodings are stored. |
| ReadProps.ReadCorrectsSingleBitErrors | SW_simulation/main.py:475-540 | With every disk healthy, a stored value with at most one flipped bit per data block reads back exactly. The corrected blocks are written back; the parity block and other stripes stay as they were. |
| ReadProps.ReadStripeClean | SW_simulation/main.py:518-536 | A stripe storing x reads back as x without rewriting anything. |
| ReadProps.DegradedReadIsRebuildThenRead | SW_simulation/main.py:511-513 | With exactly one failed disk, a served read rebuilds it first and then reads the stripe. |
| ReadProps.LossRebuilt | SW_simulation/main.py:444-464 | Failing and zeroing one disk of a parity-consistent array, then rebuilding it, gives back the original array with every disk healthy. |
| ReadProps.ReadAfterDiskLoss | SW_simulation/main.py:774-780 | After a disk is marked failed and zeroed, a value stored in a parity-consistent array still reads back exactly. The lost disk comes back with its original contents and healthy. |
| ReadProps.ReadFatalWithTwoFailures | SW_simulation/main.py:499-509 | With two failed disks a served read never completes, whatever the disks hold. |
| ReadProps.WriteThenRead | SW_simulation/main.py:728-733 | A write followed by a read of the same address returns the written 16-bit data. |
| Invariants.InitSteady | SW_simulation/main.py:6-28 | The initial state has no cached failure, all stripes valid and both buffers within bounds. |
| Invariants.ServeReadSteady | SW_simulation/main.py:497-513 | A completed read leaves the cached count at 0 and every stripe valid. |
| Invariants.StepKeepsSteady | SW_simulation/main.py:6-36 | Every event that completes keeps the cached count at 0, every stripe valid and the buffers bounded. |
| Invariants.RunKeepsSteady | SW_simulation/main.py:6-36 | Any run from a steady state that does not halt ends in a steady state. |
| Invariants.SteadyWriteIsSelective | SW_simulation/main.py:157-175 | In a steady state a served write is either skipped or the selective update: neither the failure wait nor the full-stripe write runs. |
| Invariants.ReachableWritesSelective | SW_simulation/main.py:169-175 | After any run from start-up that has not halted, the cached count is 0 and every stripe is valid. |
| Invariants.InitConsistent | SW_simulation/main.py:16 | At start-up every stripe satisfies the parity identity with codewords as data. |
| Invariants.CodewordsStore | SW_simulation/main.py:533-536 | A stripe whose data blocks are codewords stores the value they decode to. |
| Invariants.ReadStripeOfConsistent | SW_simulation/main.py:518-536 | Reading a stripe of a consistent array completes and changes nothing. |
| Invariants.ReadKeepsDisks | SW_simulation/main.py:511-531 | With a consistent array a completed read never changes a block, even when it rebuilds a failed disk first. |
| Invariants.WriteKeepsConsistent | SW_simulation/main.py:157-175 | A completed write keeps every stripe parity-consistent with codewords as data. |
| Invariants.StepKeepsConsistent | SW_simulation/main.py:511-536 | Every completed event other than a reset or a bit flip keeps the array consistent. |
| Invariants.RunKeepsConsistent | SW_simulation/main.py:131-540 | Any run of such events from a consistent array that does not halt ends with a consistent array. |

## Left out

- Trace output is left out because it only renders state:
  - the print and format helpers (lines 38-86 and 389-398);
  - `print_write_counters`;
  - every message printed by the handlers.
- The ten one-second sleeps of `handle_system_failure` are left out. Only their logical effect, clearing the cached count, is modelled.
- The endless wait at lines 506-508 and the `sys.exit` at line 449 are a `Halt` outcome, with no state after them.
- The ready flags are set to busy on entry to a handler and back to free on exit. Nothing can observe the busy value between steps, so only the value between steps is kept.
- The random workload generators (lines 628-712) and the plotting and wear statistics (lines 1009-1228) are left out: they use `random`, floating point and matplotlib, and only drive or display the engine.
- The fixed bit-error injectors `simulate_single_bit_error` and `simulate_single_bit_error_D0_D1` are replaced by a generic one-bit flip of any cell, `Raid.FlipStep`.
- The buffer size is a parameter rather than the literal 100000.
- Each buffer is a sequence of the occupied entries, not a fixed list plus a count with an O(n) shift. Serving the head and shifting is the sequence's tail.
- Python list aliasing is not modelled: blocks are values.
  - The fix mutates a block in place, but the read path writes the fixed block back to the same cell.
  - Every cell holds a freshly built list.

  So the values behave the same.
- Raid.HandleWrite: request data is 16 bits wide. The source stores any Python integer but reads only bits 0..15 of it (lines 143-144), so a wider integer is modelled by its low sixteen bits.
- Raid.HandleRead: on a halt the model keeps no state. The program has stopped or is waiting forever.
- Raid.HandleWrite: on a halt the model keeps no state. The count was already decremented, but the program has stopped.
- Invariants.RunKeepsConsistent: this is stated only for runs without resets and bit flips, because those break consistency until something repairs it.
  - A read repairs a flipped data bit only in the stripe it reads (`ReadProps.ReadCorrectsSingleBitErrors`).
  - A read repairs a reset disk only once that disk is also marked failed (`ReadProps.ReadAfterDiskLoss`).
  - A read alone never repairs a flipped parity bit, because reads check only D0 and D1.
  - A read alone never repairs a reset of a disk still marked healthy. Its zero blocks are the codeword of 0, so the check reports no error and no recovery runs. On stripes where that disk holds D0 or D1, the read returns 0 for that half; where it holds the parity block, the read returns the stored value.
  - A later write that changes the stripe stores fresh parity and data and repairs both cases (`WriteProps.WriteKeepsParity`). So does marking the affected disk failed and then reading, which rebuilds it.

=== FILE: faults.dfy ===
/** The ways a step of the simulation stops without completing.

    The source has no error values: an out-of-range list index raises an
    uncaught IndexError, the recovery routine calls sys.exit, and the read
    path with two failed disks waits forever.  Each of these ends the run,
    so the model reports them as a `Halt` carrying the reason, and says
    nothing about the state the program leaves behind. */
module Faults {

  datatype Fault =
    | IndexOutOfRange(index: int)   // IndexError on a 12-bit block or the stripe tables
    | ProgramExit                   // sys.exit in the recovery routine
    | WaitForever(failedDisks: nat) // the read path's endless wait for a repair

  /** A step that either completes with a value or halts the program. */
  datatype Result<+T> = Ok(value: T) | Halt(fault: Fault) {

    predicate IsFailure() {
      Halt?
    }

    function PropagateFailure<U>(): Result<U>
      requires Halt?
    {
      Halt(fault)
    }

    function Extract(): T
      requires Ok?
    {
      value
    }
  }
}

=== FILE: fifo.dfy ===
/** The bounded request buffers.  The source keeps a fixed-size list plus a
    count and shifts every entry down after serving the head; the model keeps
    the occupied prefix as a sequence, so the count is its length. */
module Fifo {

  datatype Queue<T> = Queue(items: seq<T>, capacity: nat)

  datatype Admission = Accepted | RejectedFull

  /** The count never exceeds the buffer size. */
  predicate Bounded<T>(q: Queue<T>) {
    |q.items| <= q.capacity
  }

  /** An add request: rejected when count >= size, otherwise stored at
      index count and the count grows by one. */
  function Enqueue<T>(q: Queue<T>, x: T): (r: (Queue<T>, Admission))
    ensures r.1 == RejectedFull <==> |q.items| >= q.capacity
    ensures r.1 == RejectedFull ==> r.0 == q
    ensures r.1 == Accepted ==> r.0.items == q.items + [x] && r.0.capacity == q.capacity
    ensures Bounded(q) ==> Bounded(r.0)
  {
    if |q.items| >= q.capacity then (q, RejectedFull)
    else (Queue(q.items + [x], q.capacity), Accepted)
  }

  /** Serving a request: the head is buffer[0], the count drops by one and
      the shift moves every later entry one place forward. */
  function Dequeue<T>(q: Queue<T>): (r: (T, Queue<T>))
    requires |q.items| > 0
    ensures q.items == [r.0] + r.1.items
    ensures r.1.capacity == q.capacity
    ensures |r.1.items| == |q.items| - 1
  {
    (q.items[0], Queue(q.items[1..], q.capacity))
  }

  /** First in, first out: with room to spare, enqueueing then serving gives
      the same head as serving first, and the new request queues behind the
      rest. */
  lemma FifoOrder<T>(q: Queue<T>, x: T)
    requires 0 < |q.items| < q.capacity
    ensures Dequeue(Enqueue(q, x).0).0 == Dequeue(q).0
    ensures Dequeue(Enqueue(q, x).0).1 == Enqueue(Dequeue(q).1, x).0
  {
    assert (q.items + [x])[1..] == q.items[1..] + [x];
  }

  /** Offering the requests xs one after another, as the test scripts do. */
  function EnqueueAll<T>(q: Queue<T>, xs: seq<T>): (Queue<T>, seq<Admission>)
    decreases |xs|
  {
    if xs == [] then (q, [])
    else
      var (q', a) := Enqueue(q, xs[0]);
      var (q'', rest) := EnqueueAll(q', xs[1..]);
      (q'', [a] + rest)
  }

  function Min(a: int, b: int): int {
    if a <= b then a else b
  }

  /** Offering xs to a buffer with room for k more keeps the first k of
      them, in order, and rejects the rest. */
  lemma {:induction false} EnqueueAllKeepsPrefix<T>(q: Queue<T>, xs: seq<T>)
    requires Bounded(q)
    ensures var (q', adm) := EnqueueAll(q, xs);
            var k := Min(|xs|, q.capacity - |q.items|);
            && q'.items == q.items + xs[..k]
            && q'.capacity == q.capacity
            && |adm| == |xs|
            && (forall i :: 0 <= i < |xs| ==> (adm[i] == Accepted <==> i < k))
    decreases |xs|
  {
    if xs != [] {
      var (q1, a) := Enqueue(q, xs[0]);
      EnqueueAllKeepsPrefix(q1, xs[1..]);
      var (q', rest) := EnqueueAll(q1, xs[1..]);
      var k := Min(|xs|, q.capacity - |q.items|);
      if a == Accepted {
        assert q.items + xs[..k] == q1.items + xs[1..][..k - 1];
      } else {
        assert k == 0;
      }
      forall i | 0 <= i < |xs|
        ensures ([a] + rest)[i] == Accepted <==> i < k
      {
        if i > 0 {
          assert ([a] + rest)[i] == rest[i - 1];
        }
      }
    }
  }

  /** Offering capacity + 1 requests to an empty buffer: the last one is
      rejected and the buffer holds exactly capacity requests. */
  lemma OverflowRejectsLast<T>(capacity: nat, xs: seq<T>)
    requires |xs| == capacity + 1
    ensures var (q', adm) := EnqueueAll(Queue([], capacity), xs);
            && |q'.items| == capacity
            && q'.items == xs[..capacity]
            && |adm| == capacity + 1
            && adm[capacity] == RejectedFull
            && forall i :: 0 <= i < capacity ==> adm[i] == Accepted
  {
    EnqueueAllKeepsPrefix(Queue([], capacity), xs);
  }
}

=== FILE: hamming.dfy ===
/** The Hamming(12,8) single-error-correcting code used for every block.

    A block is a list of 12 bits indexed 0..11.  The parity bits sit at the
    power-of-two positions 1, 2, 4, 8 (1-indexed), that is at indices 0, 1,
    3, 7; the eight payload bits fill indices 2, 4, 5, 6, 8, 9, 10, 11, most
    significant bit first.  There is no overall parity bit, so two flipped
    bits are indistinguishable from one. */
module Hamming {
  import opened Faults

  const BLOCK_SIZE := 12

  /** One stored bit; the source keeps 0/1 integers and combines them with ^. */
  type Bit = bv1

  /** An 8-bit payload half. */
  type Byte = bv8

  type BitIndex = i: int | 0 <= i < BLOCK_SIZE

  type Codeword = c: seq<Bit> | |c| == BLOCK_SIZE witness seq(BLOCK_SIZE, _ => 0 as Bit)

  /** The lowest bit of y, `y & 1`. */
  function LowBit(y: Byte): Bit {
    if y & 1 == 1 then 1 else 0
  }

  /** A payload byte holding just the bit b, `b` widened to 8 bits. */
  function Widen(b: Bit): Byte {
    if b == 1 then 1 else 0
  }

  function Flip(c: Codeword, i: BitIndex): (r: Codeword)
    ensures r[i] != c[i]
    ensures forall j :: 0 <= j < BLOCK_SIZE && j != i ==> r[j] == c[j]
  {
    c[i := c[i] ^ 1]
  }

  function Encode(x: Byte): (c: Codeword)
    ensures Syndrome(c) == 0
  {
    var d2 := LowBit(x >> 7);
    var d4 := LowBit(x >> 6);
    var d5 := LowBit(x >> 5);
    var d6 := LowBit(x >> 4);
    var d8 := LowBit(x >> 3);
    var d9 := LowBit(x >> 2);
    var d10 := LowBit(x >> 1);
    var d11 := LowBit(x);
    [ d2 ^ d4 ^ d6 ^ d8 ^ d10,
      d2 ^ d5 ^ d6 ^ d9 ^ d10,
      d2,
      d4 ^ d5 ^ d6 ^ d11,
      d4, d5, d6,
      d8 ^ d9 ^ d10 ^ d11,
      d8, d9, d10, d11 ]
  }

  function Weight(b: Bit): nat {
    if b == 1 then 1 else 0
  }

  /** The syndrome P1 + 2*P2 + 4*P4 + 8*P8 of the four parity re-checks. */
  function Syndrome(c: Codeword): (s: nat)
    ensures s < 16
  {
    var p1 := c[0] ^ c[2] ^ c[4] ^ c[6] ^ c[8] ^ c[10];
    var p2 := c[1] ^ c[2] ^ c[5] ^ c[6] ^ c[9] ^ c[10];
    var p4 := c[3] ^ c[4] ^ c[5] ^ c[6] ^ c[11];
    var p8 := c[7] ^ c[8] ^ c[9] ^ c[10] ^ c[11];
    Weight(p1) + 2 * Weight(p2) + 4 * Weight(p4) + 8 * Weight(p8)
  }

  datatype CheckResult = NoError | SBE

  /** Any nonzero syndrome is reported as a single-bit error. */
  function Check(c: Codeword): (r: CheckResult)
    ensures r == NoError <==> c == Encode(Decode(c))
  {
    CodewordIffSyndromeZero(c);
    if Syndrome(c) == 0 then NoError else SBE
  }

  /** Python list indexing: -n..-1 count from the end, anything else outside
      0..n-1 raises IndexError. */
  function PyIndex(i: int, n: nat): (r: Result<int>)
    ensures r.Ok? <==> -(n as int) <= i < n
    ensures r.Ok? ==> r.value < n && (r.value == i || r.value == i + n)
  {
    if 0 <= i < n then Ok(i)
    else if -(n as int) <= i < 0 then Ok(i + n)
    else Halt(IndexOutOfRange(i))
  }

  /** Flips the bit at index S-1.  A syndrome of 0 indexes -1, the last bit;
      a syndrome of 13..15 indexes past the block and raises IndexError. */
  function Fix(c: Codeword): (r: Result<Codeword>)
    ensures 1 <= Syndrome(c) <= BLOCK_SIZE ==>
              r == Ok(Flip(c, Syndrome(c) - 1)) && Syndrome(r.value) == 0
    ensures Syndrome(c) == 0 ==> r == Ok(Flip(c, BLOCK_SIZE - 1)) && Syndrome(r.value) == BLOCK_SIZE
    ensures Syndrome(c) > BLOCK_SIZE ==> r.Halt?
  {
    var s := Syndrome(c);
    match PyIndex(s - 1, BLOCK_SIZE)
    case Ok(i) =>
      if s == 0 then
        FlipSyndrome(c, i);
        Ok(Flip(c, i))
      else
        FlipAtSyndromeClears(c);
        Ok(Flip(c, i))
    case Halt(f) => Halt(f)
  }

  /** Reassembles the payload from indices 2, 4, 5, 6, 8, 9, 10, 11. */
  function Decode(c: Codeword): Byte
  {
    (Widen(c[2]) << 7) | (Widen(c[4]) << 6) | (Widen(c[5]) << 5) | (Widen(c[6]) << 4) |
    (Widen(c[8]) << 3) | (Widen(c[9]) << 2) | (Widen(c[10]) << 1) | Widen(c[11])
  }

  /** Decoding an encoded payload gives the payload back. */
  lemma DecodeEncode(x: Byte)
    ensures Decode(Encode(x)) == x
  {
  }

  /** The syndrome is zero exactly on the 256 codewords. */
  lemma CodewordIffSyndromeZero(c: Codeword)
    ensures Syndrome(c) == 0 <==> c == Encode(Decode(c))
  {
    var e := Encode(Decode(c));
    if Syndrome(c) == 0 {
      forall i | 0 <= i < BLOCK_SIZE
        ensures e[i] == c[i]
      {
      }
    }
  }

  /** Flipping bit p of a codeword gives syndrome p+1 (1-indexed position). */
  lemma FlipSyndrome(c: Codeword, p: BitIndex)
    requires Syndrome(c) == 0
    ensures Syndrome(Flip(c, p)) == p + 1
  {
    if p < 4 {
      FlipSyndromeLow(c, p);
    } else if p < 8 {
      FlipSyndromeMid(c, p);
    } else {
      FlipSyndromeHigh(c, p);
    }
  }

  lemma FlipSyndromeLow(c: Codeword, p: BitIndex)
    requires Syndrome(c) == 0 && p < 4
    ensures Syndrome(Flip(c, p)) == p + 1
  {
    if p == 0 {} else if p == 1 {} else if p == 2 {} else {}
  }

  lemma FlipSyndromeMid(c: Codeword, p: BitIndex)
    requires Syndrome(c) == 0 && 4 <= p < 8
    ensures Syndrome(Flip(c, p)) == p + 1
  {
    if p == 4 {} else if p == 5 {} else if p == 6 {} else {}
  }

  lemma FlipSyndromeHigh(c: Codeword, p: BitIndex)
    requires Syndrome(c) == 0 && 8 <= p
    ensures Syndrome(Flip(c, p)) == p + 1
  {
    if p == 8 {} else if p == 9 {} else if p == 10 {} else {}
  }

  /** Flipping the bit a nonzero in-range syndrome names clears the syndrome. */
  lemma FlipAtSyndromeClears(c: Codeword)
    requires 1 <= Syndrome(c) <= BLOCK_SIZE
    ensures Syndrome(Flip(c, Syndrome(c) - 1)) == 0
  {
    var p := Syndrome(c) - 1;
    if p < 4 {
      ClearsLow(c, p);
    } else if p < 8 {
      ClearsMid(c, p);
    } else {
      ClearsHigh(c, p);
    }
  }

  lemma ClearsLow(c: Codeword, p: BitIndex)
    requires Syndrome(c) == p + 1 && p < 4
    ensures Syndrome(Flip(c, p)) == 0
  {
    if p == 0 {} else if p == 1 {} else if p == 2 {} else {}
  }

  lemma ClearsMid(c: Codeword, p: BitIndex)
    requires Syndrome(c) == p + 1 && 4 <= p < 8
    ensures Syndrome(Flip(c, p)) == 0
  {
    if p == 4 {} else if p == 5 {} else if p == 6 {} else {}
  }

  lemma ClearsHigh(c: Codeword, p: BitIndex)
    requires Syndrome(c) == p + 1 && 8 <= p
    ensures Syndrome(Flip(c, p)) == 0
  {
    if p == 8 {} else if p == 9 {} else if p == 10 {} else {}
  }

  /** Flipping the same bit twice restores the block. */
  lemma FlipTwice(c: Codeword, p: BitIndex)
    ensures Flip(Flip(c, p), p) == c
  {
    var f := Flip(Flip(c, p), p);
    forall j | 0 <= j < BLOCK_SIZE
      ensures f[j] == c[j]
    {
    }
  }

  /** The read path's treatment of one block: check it, and fix it when the
      check reports a single-bit error. */
  function Correct(c: Codeword): (r: Result<Codeword>)
    ensures Syndrome(c) <= BLOCK_SIZE <==> r.Ok?
    ensures r.Ok? ==> Check(r.value) == NoError
    ensures r.Ok? && Check(c) == NoError ==> r.value == c
    ensures r.Ok? && Check(c) == SBE ==> r.value == Flip(c, Syndrome(c) - 1)
  {
    if Check(c) == SBE then Fix(c) else Ok(c)
  }

  /** c is the codeword e, or e with one bit flipped. */
  ghost predicate WithinOneBit(c: Codeword, e: Codeword) {
    c == e || exists p: BitIndex :: c == Flip(e, p)
  }

  /** A flipped block differs from the original and is within one bit of
      it. */
  lemma FlipIsOneBitAway(c: Codeword, p: BitIndex)
    ensures Flip(c, p) != c && WithinOneBit(Flip(c, p), c)
  {
  }

  /** A single flipped bit is detected, reported as SBE, and fixed back to
      the original codeword. */
  lemma FixSingleBitError(x: Byte, p: BitIndex)
    ensures Check(Flip(Encode(x), p)) == SBE
    ensures Fix(Flip(Encode(x), p)) == Ok(Encode(x))
  {
    FlipSyndrome(Encode(x), p);
    FlipTwice(Encode(x), p);
  }

  /** Check-then-fix recovers the payload from any block within one bit of
      its encoding. */
  lemma CorrectWithinOneBit(x: Byte, c: Codeword)
    requires WithinOneBit(c, Encode(x))
    ensures Correct(c) == Ok(Encode(x))
    ensures Decode(Correct(c).value) == x
  {
    DecodeEncode(x);
    if c != Encode(x) {
      var p: BitIndex :| c == Flip(Encode(x), p);
      FixSingleBitError(x, p);
    }
  }

  /** Two flipped bits can masquerade as one: flipping indices 0 and 1 of the
      encoding of 0 gives syndrome 3, and the fix flips index 2 instead,
      decoding to 0x80. */
  lemma DoubleErrorMiscorrected()
    ensures var c := Flip(Flip(Encode(0), 0), 1);
            Check(c) == SBE && Correct(c).Ok? && Decode(Correct(c).value) == 0x80
  {
    var c := Flip(Flip(Encode(0), 0), 1);
    assert c == [1, 1, 0, 0, 0, 0, 0, 0, 0, 0, 0, 0];
    assert Syndrome(c) == 3;
    assert Fix(c).value == [1, 1, 1, 0, 0, 0, 0, 0, 0, 0, 0, 0];
  }

  /** Two flipped bits can also give a syndrome past the block: flipping
      indices 0 and 11 of the encoding of 0 gives syndrome 13, and the fix
      raises IndexError. */
  lemma DoubleErrorOutOfRange()
    ensures var c := Flip(Flip(Encode(0), 0), 11);
            Check(c) == SBE && Fix(c) == Halt(IndexOutOfRange(12))
  {
    var c := Flip(Flip(Encode(0), 0), 11);
    assert c == [1, 0, 0, 0, 0, 0, 0, 0, 0, 0, 0, 1];
    assert Syndrome(c) == 13;
  }
}

=== FILE: invariants.dfy ===
/** Invariants of whole runs of the simulation: sequences of the events the
    test scenarios perform, starting from the initial state.

    The cached failure count is assigned only at start-up, by the read path
    and by the recovery, and each of those leaves it at zero whenever the
    step completes; no step ever marks a stripe invalid.  So in every run
    the failure wait of the write path and the full-stripe write of an
    invalid stripe are never reached.  Separately, as long as no event
    destroys data (a reset or a bit flip), every stripe satisfies the parity
    identity with codewords as data, and a read never rewrites a block. */
module Invariants {
  import opened Faults
  import opened Hamming
  import opened Storage
  import opened Fifo
  import opened Raid
  import WriteProps
  import ReadProps

  /** What a test scenario can do to the simulation. */
  datatype Event =
    | SubmitWrite(address: int, data: bv16)
    | SubmitRead(address: int)
    | Enable
    | ServeWrite
    | ServeRead
    | FailDiskEvent(disk: DiskId)
    | ResetDiskEvent(target: int)
    | FlipBitEvent(disk: DiskId, stripe: StripeId, bit: BitIndex)

  /** One event.  A rejected submission leaves the state unchanged; a
      served read's reply is dropped. */
  function Step(st: State, e: Event): Result<State> {
    match e
    case SubmitWrite(address, data) => Ok(AddWrite(st, address, data).0)
    case SubmitRead(address) => Ok(AddRead(st, address).0)
    case Enable => Ok(EnableHandlers(st))
    case ServeWrite => HandleWrite(st)
    case ServeRead =>
      var r :- HandleRead(st);
      Ok(r.next)
    case FailDiskEvent(d) => Ok(FailDisk(st, d))
    case ResetDiskEvent(d) => Ok(ResetDiskStep(st, d))
    case FlipBitEvent(d, s, p) => Ok(FlipStep(st, d, s, p))
  }

  /** The events in order, stopping at the first one that halts. */
  function Run(st: State, evs: seq<Event>): Result<State>
    decreases |evs|
  {
    if evs == [] then Ok(st)
    else
      var st1 :- Step(st, evs[0]);
      Run(st1, evs[1..])
  }

  // ---------------------------------------------------------------------
  // The cached count stays zero and every stripe stays valid

  /** The control invariant: no cached failure, every stripe valid, both
      buffers within their capacity. */
  predicate Steady(st: State) {
    && st.failCount == 0
    && st.stripeValid == ALL_VALID
    && Bounded(st.writeQueue) && Bounded(st.readQueue)
  }

  lemma InitSteady(wc: nat, rc: nat)
    ensures Steady(Init(wc, rc))
  {
  }

  lemma ServeReadSteady(st: State)
    requires Steady(st)
    requires HandleRead(st).Ok?
    ensures Steady(HandleRead(st).value.next)
  {
    if st.readReady && |st.readQueue.items| > 0 {
      var n := CountFailed(st.status);
      if n == 0 {
        ReadProps.HealthyReadIsReadStripe(st);
      } else {
        CountOne(st.status);
        ReadProps.DegradedReadIsRebuildThenRead(st, FailedDisks(st.status)[0]);
      }
    }
  }

  /** Every event that completes keeps the control invariant. */
  lemma StepKeepsSteady(st: State, e: Event)
    requires Steady(st)
    ensures Step(st, e).Ok? ==> Steady(Step(st, e).value)
  {
    match e
    case ServeWrite =>
      if st.writeReady && |st.writeQueue.items| > 0 && StripeOf(st.writeQueue.items[0].address) < NUM_STRIPES {
        var s: StripeId := StripeOf(st.writeQueue.items[0].address);
        var req := st.writeQueue.items[0];
        var st1 := st.(writeQueue := Dequeue(st.writeQueue).1);
        assert HandleWrite(st) == Ok(ApplyWrite(st1, s, Encode(Hi(req.data)), Encode(Lo(req.data))));
        assert st.stripeValid[s := true] == st.stripeValid;
      }
    case ServeRead =>
      if HandleRead(st).Ok? {
        ServeReadSteady(st);
      }
    case _ =>
  }

  /** Every run from a steady state ends in a steady state unless it
      halts. */
  lemma {:induction false} RunKeepsSteady(st: State, evs: seq<Event>)
    requires Steady(st)
    ensures Run(st, evs).Ok? ==> Steady(Run(st, evs).value)
    decreases |evs|
  {
    if evs != [] {
      StepKeepsSteady(st, evs[0]);
      if Step(st, evs[0]).Ok? {
        RunKeepsSteady(Step(st, evs[0]).value, evs[1..]);
      }
    }
  }

  /** In a steady state a served write to an existing stripe is either
      skipped or the selective update of the state with the request
      removed: neither the failure wait nor the full-stripe write runs. */
  lemma SteadyWriteIsSelective(st: State)
    requires Steady(st)
    requires st.writeReady && |st.writeQueue.items| > 0
    requires StripeOf(st.writeQueue.items[0].address) < NUM_STRIPES
    ensures var req := st.writeQueue.items[0];
            var s := StripeOf(req.address);
            var st1 := st.(writeQueue := Dequeue(st.writeQueue).1);
            var e0, e1 := Encode(Hi(req.data)), Encode(Lo(req.data));
            var old0, old1 := st.disks[Roles(s).d0][s], st.disks[Roles(s).d1][s];
            HandleWrite(st) ==
              Ok(if e0 == old0 && e1 == old1 then st1 else SelectiveWrite(st1, s, e0, e1, old0, old1))
  {
    var req := st.writeQueue.items[0];
    var s: StripeId := StripeOf(req.address);
    var st1 := st.(writeQueue := Dequeue(st.writeQueue).1);
    var e0, e1 := Encode(Hi(req.data)), Encode(Lo(req.data));
    assert HandleWrite(st) == Ok(ApplyWrite(st1, s, e0, e1));
    if !HoldsBlocks(st1.disks, s, e0, e1) {
      WriteProps.UpdateIsSelective(st1, s, e0, e1);
      assert st1.(failCount := 0) == st1;
    }
  }

  /** Every run from the initial state that has not halted sits in a steady
      state, so its next served write never takes the failure wait or the
      full-stripe write. */
  lemma ReachableWritesSelective(wc: nat, rc: nat, evs: seq<Event>)
    ensures var r := Run(Init(wc, rc), evs);
            r.Ok? ==> r.value.failCount == 0 && forall s: StripeId :: r.value.stripeValid[s]
  {
    InitSteady(wc, rc);
    RunKeepsSteady(Init(wc, rc), evs);
  }

  // ---------------------------------------------------------------------
  // Consistent disks

  /** Every stripe satisfies the parity identity and both its data blocks
      are codewords. */
  ghost predicate Consistent(a: Disks) {
    forall s: StripeId ::
      && ParityHolds(a, s)
      && Syndrome(a[Roles(s).d0][s]) == 0
      && Syndrome(a[Roles(s).d1][s]) == 0
  }

  /** Events that do not destroy stored data. */
  predicate Benign(e: Event) {
    !e.ResetDiskEvent? && !e.FlipBitEvent?
  }

  lemma InitConsistent(wc: nat, rc: nat)
    ensures Consistent(Init(wc, rc).disks)
  {
    var a := Init(wc, rc).disks;
    forall s: StripeId
      ensures Syndrome(a[Roles(s).d0][s]) == 0 && Syndrome(a[Roles(s).d1][s]) == 0
    {
      assert a[Roles(s).d0][s] == Encode(0);
      assert a[Roles(s).d1][s] == Encode(0);
    }
  }

  /** A stripe whose data blocks are codewords stores the value they
      decode to. */
  lemma CodewordsStore(a: Disks, s: StripeId)
    requires Syndrome(a[Roles(s).d0][s]) == 0 && Syndrome(a[Roles(s).d1][s]) == 0
    ensures Stores(a, s, Join(Decode(a[Roles(s).d0][s]), Decode(a[Roles(s).d1][s])))
  {
    CodewordIffSyndromeZero(a[Roles(s).d0][s]);
    CodewordIffSyndromeZero(a[Roles(s).d1][s]);
    JoinSplit(0, Decode(a[Roles(s).d0][s]), Decode(a[Roles(s).d1][s]));
  }

  /** Reading a stripe of consistent disks changes nothing. */
  lemma ReadStripeOfConsistent(st: State, s: StripeId)
    requires Consistent(st.disks)
    ensures ReadStripe(st, s).Ok? && ReadStripe(st, s).value.next == st
  {
    CodewordsStore(st.disks, s);
    ReadProps.ReadStripeClean(st, s, Join(Decode(st.disks[Roles(s).d0][s]), Decode(st.disks[Roles(s).d1][s])));
  }

  /** With consistent disks a read never writes a block: with every disk
      healthy nothing needs correcting, and with one failed disk the
      rebuild reproduces exactly what the disk holds. */
  lemma ReadKeepsDisks(st: State)
    requires Consistent(st.disks)
    requires HandleRead(st).Ok?
    ensures HandleRead(st).value.next.disks == st.disks
  {
    if st.readReady && |st.readQueue.items| > 0 {
      var s: StripeId := StripeOf(st.readQueue.items[0].address);
      var n := CountFailed(st.status);
      var st1 := st.(readQueue := Dequeue(st.readQueue).1, failCount := n);
      if n == 0 {
        ReadProps.HealthyReadIsReadStripe(st);
        ReadStripeOfConsistent(st1, s);
      } else {
        assert n == 1;
        CountOne(st.status);
        var f := FailedDisks(st.status)[0];
        ReadProps.DegradedReadIsRebuildThenRead(st, f);
        assert ReadProps.ParityEverywhere(st.disks);
        ReadProps.RecoveryRestores(st1, st.disks, f);
        var st2 := RebuildDisk(st1, f);
        ReadStripeOfConsistent(st2, s);
      }
    }
  }

  /** A served write keeps the disks consistent. */
  lemma WriteKeepsConsistent(st: State)
    requires Consistent(st.disks)
    requires HandleWrite(st).Ok?
    ensures Consistent(HandleWrite(st).value.disks)
  {
    if st.writeReady && |st.writeQueue.items| > 0 {
      var req := st.writeQueue.items[0];
      var s: StripeId := StripeOf(req.address);
      var a := HandleWrite(st).value.disks;
      WriteProps.WriteKeepsParity(st);
      assert Syndrome(a[Roles(s).d0][s]) == 0 && Syndrome(a[Roles(s).d1][s]) == 0 by {
        assert Stores(a, s, req.data);
      }
      forall t: StripeId
        ensures ParityHolds(a, t)
      {
        if t != s {
          assert ParityHolds(st.disks, t);
        }
      }
    }
  }

  /** Every benign event that completes keeps the disks consistent. */
  lemma StepKeepsConsistent(st: State, e: Event)
    requires Consistent(st.disks)
    requires Benign(e)
    ensures Step(st, e).Ok? ==> Consistent(Step(st, e).value.disks)
  {
    match e
    case ServeWrite =>
      if HandleWrite(st).Ok? {
        WriteKeepsConsistent(st);
      }
    case ServeRead =>
      if HandleRead(st).Ok? {
        ReadKeepsDisks(st);
      }
    case _ =>
  }

  /** Every run of benign events from consistent disks ends with
      consistent disks unless it halts. */
  lemma {:induction false} RunKeepsConsistent(st: State, evs: seq<Event>)
    requires Consistent(st.disks)
    requires forall i :: 0 <= i < |evs| ==> Benign(evs[i])
    ensures Run(st, evs).Ok? ==> Consistent(Run(st, evs).value.disks)
    decreases |evs|
  {
    if evs != [] {
      StepKeepsConsistent(st, evs[0]);
      if Step(st, evs[0]).Ok? {
        RunKeepsConsistent(Step(st, evs[0]).value, evs[1..]);
      }
    }
  }
}

=== FILE: raid.dfy ===
/** The RAID-5 engine: the global state of the simulation and its steps.

    Each step is a pure function from the state before to the state after.
    A step that would raise IndexError, call sys.exit or wait forever
    returns `Halt` instead.  Buffers are bounded FIFO queues; the ready
    flags are set to busy on entry to a handler and back to free on exit,
    which a step that runs to completion cannot observe, so the model keeps
    only their value between steps. */
module Raid {
  import opened Faults
  import opened Hamming
  import opened Storage
  import opened Fifo

  /** The payload is 16 bits wide: the handler reads only bits 0..15 of
      the request's integer. */
  datatype WriteRequest = WriteRequest(address: int, data: bv16)

  datatype ReadRequest = ReadRequest(address: int)

  /** The is_valid flag of each stripe. */
  type Validity = v: seq<bool> | |v| == NUM_STRIPES witness [true, true, true, true, true, true]

  const ALL_VALID: Validity := [true, true, true, true, true, true]
  const ALL_HEALTHY: Statuses := [Healthy, Healthy, Healthy]
  const ZERO_DISKS: Disks := [ZERO_DISK, ZERO_DISK, ZERO_DISK]

  /** The module-level globals of the simulation.  failCount is
      num_of_fail_disks, a cached count that only the read path and the
      recovery refresh, so it can disagree with status. */
  datatype State = State(
    disks: Disks,
    stripeValid: Validity,
    status: Statuses,
    failCount: nat,
    writeQueue: Queue<WriteRequest>,
    readQueue: Queue<ReadRequest>,
    writeReady: bool,
    readReady: bool,
    counters: Counters)

  /** The state at start-up: zeroed disks, every stripe valid, every disk
      healthy, both buffers empty, writes not yet enabled, reads enabled. */
  function Init(writeCapacity: nat, readCapacity: nat): (st: State)
    ensures forall d: DiskId, s: StripeId :: st.disks[d][s] == Encode(0)
    ensures forall s: StripeId :: st.stripeValid[s] && ParityHolds(st.disks, s)
    ensures CountFailed(st.status) == 0 && st.failCount == 0
    ensures st.writeQueue.items == [] && st.readQueue.items == []
    ensures st.writeQueue.capacity == writeCapacity && st.readQueue.capacity == readCapacity
    ensures !st.writeReady && st.readReady
    ensures Total(st.counters) == 0
    ensures forall d: DiskId, s: StripeId :: st.counters.perDisk[d] == 0 && st.counters.perBlock[d][s] == 0
  {
    ZeroBlockIsCodeword();
    State(ZERO_DISKS, ALL_VALID, ALL_HEALTHY, 0,
          Queue([], writeCapacity), Queue([], readCapacity), false, true, NO_WRITES)
  }

  lemma ZeroBlockIsCodeword()
    ensures ZERO_BLOCK == Encode(0)
    ensures XorBlocks(ZERO_BLOCK, ZERO_BLOCK) == ZERO_BLOCK
  {
    assert XorBlocks(ZERO_BLOCK, ZERO_BLOCK) == ZERO_BLOCK by {
      forall i | 0 <= i < BLOCK_SIZE
        ensures XorBlocks(ZERO_BLOCK, ZERO_BLOCK)[i] == ZERO_BLOCK[i]
      {
      }
    }
  }

  // ---------------------------------------------------------------------
  // Stripe layout and the parity identity

  /** Where D0, D1 and the parity block of stripe s live. */
  function Roles(s: StripeId): (l: Layout)
    ensures l.parity == ParityDisk(s)
    ensures l.d0 < l.d1 && l.d0 != l.parity && l.d1 != l.parity
  {
    LayoutFor(ParityDisk(s))
  }

  /** The parity block of stripe s is the XOR of its two data blocks. */
  predicate ParityHolds(a: Disks, s: StripeId) {
    var l := Roles(s);
    a[l.parity][s] == XorBlocks(a[l.d0][s], a[l.d1][s])
  }

  /** The data blocks of stripe s are the encodings of the two halves of x. */
  predicate Stores(a: Disks, s: StripeId, x: bv16) {
    var l := Roles(s);
    a[l.d0][s] == Encode(Hi(x)) && a[l.d1][s] == Encode(Lo(x))
  }

  /** `(data >> 8) & 0xFF`, the upper payload byte. */
  function Hi(data: bv16): Byte {
    (data >> 8) as Byte
  }

  /** `data & 0xFF`, the lower payload byte. */
  function Lo(data: bv16): Byte {
    (data & 0xFF) as Byte
  }

  /** `(D0 << 8) | D1`, the value a read returns. */
  function Join(hi: Byte, lo: Byte): bv16 {
    ((hi as bv16) << 8) | (lo as bv16)
  }

  /** Splitting request data into halves and joining them is lossless in
      both directions. */
  lemma JoinSplit(x: bv16, hi: Byte, lo: Byte)
    ensures Join(Hi(x), Lo(x)) == x
    ensures Hi(Join(hi, lo)) == hi && Lo(Join(hi, lo)) == lo
  {
  }

  // ---------------------------------------------------------------------
  // Write pipeline

  /** Queues a write request, or rejects it when the buffer is full. */
  function AddWrite(st: State, address: int, data: bv16): (r: (State, Admission))
    ensures r.1 == RejectedFull <==> |st.writeQueue.items| >= st.writeQueue.capacity
    ensures r.1 == RejectedFull ==> r.0 == st
    ensures r.1 == Accepted ==> r.0 == st.(writeQueue := Queue(st.writeQueue.items + [WriteRequest(address, data)], st.writeQueue.capacity))
  {
    var (q, a) := Enqueue(st.writeQueue, WriteRequest(address, data));
    (st.(writeQueue := q), a)
  }

  /** The test scripts enable both handlers before driving them. */
  function EnableHandlers(st: State): (r: State)
    ensures r.writeReady && r.readReady
    ensures r.(writeReady := st.writeReady, readReady := st.readReady) == st
  {
    st.(writeReady := true, readReady := true)
  }

  /** Everything a disk write leaves alone: health, buffers and ready
      flags. */
  predicate SameControl(a: State, b: State) {
    && a.status == b.status
    && a.writeQueue == b.writeQueue && a.readQueue == b.readQueue
    && a.writeReady == b.writeReady && a.readReady == b.readReady
  }

  /** The logical effect of the failure wait: the cached failure count is
      cleared, and nothing else, not even the disk health, changes. */
  function HandleSystemFailure(st: State): (r: State)
    ensures r.failCount == 0
    ensures r.(failCount := st.failCount) == st
  {
    st.(failCount := 0)
  }

  /** The full-stripe write of an invalid stripe: parity, D0 and D1 are all
      written and counted, and the stripe becomes valid.  On a valid stripe
      nothing happens. */
  function WriteToDisks(st: State, s: StripeId, e0: Codeword, e1: Codeword): (r: State)
    ensures !st.stripeValid[s] ==>
              var l := Roles(s);
              && r.disks[l.d0][s] == e0 && r.disks[l.d1][s] == e1
              && ParityHolds(r.disks, s)
              && r.stripeValid == st.stripeValid[s := true]
              && (forall e: DiskId :: Bumped(st.counters, r.counters, e, s, 1))
    ensures st.stripeValid[s] ==> r == st
    ensures SameOutside(st.disks, r.disks, s)
    ensures forall e: DiskId, t: StripeId :: t != s ==> r.counters.perBlock[e][t] == st.counters.perBlock[e][t]
    ensures SameControl(st, r) && r.failCount == st.failCount
  {
    if st.stripeValid[s] then st
    else
      var l := Roles(s);
      var p0 := XorBlocks(e0, e1);
      var a := Store(Store(Store(st.disks, l.parity, s, p0), l.d0, s, e0), l.d1, s, e1);
      var k := Charge(Charge(Charge(st.counters, l.parity, s), l.d0, s), l.d1, s);
      st.(disks := a, counters := k, stripeValid := st.stripeValid[s := true])
  }

  /** calculate_p0_new. */
  function NewParity(e0: Codeword, e1: Codeword): (p: Codeword)
    ensures XorBlocks(p, e1) == e0 && XorBlocks(p, e0) == e1
  {
    XorRecovers(e0, e1);
    XorBlocks(e0, e1)
  }

  /** Only the lower half changed: the branch that writes parity and D1. */
  predicate OnlyLowChanged(e0: Codeword, e1: Codeword, old0: Codeword, old1: Codeword) {
    e0 == old0 && e1 != old1
  }

  /** Only the upper half changed: the branch that writes parity and D0. */
  predicate OnlyHighChanged(e0: Codeword, e1: Codeword, old0: Codeword, old1: Codeword) {
    e1 == old1 && e0 != old0
  }

  /** The disks a selective write charges to the counters, in the order
      the source charges them.  In the branch where only D1 changed and the
      parity lives on disk 2 the source writes disks 2 and 1 but charges
      disks 0 and 1; the model keeps that. */
  function SelectiveCharges(s: StripeId, e0: Codeword, e1: Codeword, old0: Codeword, old1: Codeword): seq<DiskId>
  {
    var l := Roles(s);
    if OnlyLowChanged(e0, e1, old0, old1) then
      if l.parity == 2 then [0, 1] else [l.parity, l.d1]
    else if OnlyHighChanged(e0, e1, old0, old1) then [l.parity, l.d0]
    else [l.parity, l.d0, l.d1]
  }

  /** Charges one write per listed disk against stripe s. */
  function ChargeAll(k: Counters, ds: seq<DiskId>, s: StripeId): (r: Counters)
    ensures Total(r) == Total(k) + |ds|
    ensures forall e: DiskId :: Bumped(k, r, e, s, multiset(ds)[e])
    ensures forall e: DiskId, t: StripeId :: t != s ==> r.perBlock[e][t] == k.perBlock[e][t]
    decreases |ds|
  {
    if ds == [] then k
    else
      assert ds == [ds[0]] + ds[1..];
      ChargeAll(Charge(k, ds[0], s), ds[1..], s)
  }

  /** The blocks a selective update stores: the new parity together with
      whichever data half alone changed, or with both halves otherwise. */
  function SelectiveStore(a: Disks, s: StripeId, e0: Codeword, e1: Codeword, old0: Codeword, old1: Codeword): (r: Disks)
    ensures var l := Roles(s);
            && r[l.parity][s] == XorBlocks(e0, e1)
            && r[l.d0][s] == (if OnlyLowChanged(e0, e1, old0, old1) then a[l.d0][s] else e0)
            && r[l.d1][s] == (if OnlyHighChanged(e0, e1, old0, old1) then a[l.d1][s] else e1)
    ensures SameOutside(a, r, s)
  {
    var l := Roles(s);
    var p0 := NewParity(e0, e1);
    if OnlyLowChanged(e0, e1, old0, old1) then Store(Store(a, l.parity, s, p0), l.d1, s, e1)
    else if OnlyHighChanged(e0, e1, old0, old1) then Store(Store(a, l.parity, s, p0), l.d0, s, e0)
    else Store(Store(Store(a, l.parity, s, p0), l.d0, s, e0), l.d1, s, e1)
  }

  /** The selective update of a valid stripe: the blocks of SelectiveStore
      are written, one write per entry of SelectiveCharges is counted, and
      the stripe stays valid. */
  function SelectiveWrite(st: State, s: StripeId, e0: Codeword, e1: Codeword, old0: Codeword, old1: Codeword): (r: State)
    ensures var l := Roles(s);
            && r.disks[l.parity][s] == XorBlocks(e0, e1)
            && r.disks[l.d0][s] == (if OnlyLowChanged(e0, e1, old0, old1) then st.disks[l.d0][s] else e0)
            && r.disks[l.d1][s] == (if OnlyHighChanged(e0, e1, old0, old1) then st.disks[l.d1][s] else e1)
    ensures SameOutside(st.disks, r.disks, s)
    ensures Total(r.counters) == Total(st.counters) + |SelectiveCharges(s, e0, e1, old0, old1)|
    ensures forall e: DiskId :: Bumped(st.counters, r.counters, e, s, multiset(SelectiveCharges(s, e0, e1, old0, old1))[e])
    ensures forall e: DiskId, t: StripeId :: t != s ==> r.counters.perBlock[e][t] == st.counters.perBlock[e][t]
    ensures r.stripeValid == st.stripeValid[s := true]
    ensures SameControl(st, r) && r.failCount == st.failCount
  {
    st.(disks := SelectiveStore(st.disks, s, e0, e1, old0, old1),
        counters := ChargeAll(st.counters, SelectiveCharges(s, e0, e1, old0, old1), s),
        stripeValid := st.stripeValid[s := true])
  }

  /** A write to a valid stripe: skipped when the stored data blocks
      already equal the new encodings, otherwise a selective update, after
      the failure wait when the cached failure count is positive. */
  function UpdateValidStripe(st: State, s: StripeId, e0: Codeword, e1: Codeword): (r: State)
    requires st.stripeValid[s]
    ensures HoldsBlocks(st.disks, s, e0, e1) ==> r == st
    ensures !HoldsBlocks(st.disks, s, e0, e1) ==> HoldsBlocks(r.disks, s, e0, e1) && ParityHolds(r.disks, s)
    ensures SameOutside(st.disks, r.disks, s)
    ensures forall e: DiskId, t: StripeId :: t != s ==> r.counters.perBlock[e][t] == st.counters.perBlock[e][t]
    ensures r.stripeValid == st.stripeValid
    ensures SameControl(st, r)
    ensures r.failCount == st.failCount || r.failCount == 0
  {
    // data_disks, [0, 1, 2] without the parity disk, is [d0, d1] (PlacementAgrees)
    var old0 := st.disks[Roles(s).d0][s];
    var old1 := st.disks[Roles(s).d1][s];
    if e0 == old0 && e1 == old1 then st
    else
      var st1 := if st.failCount > 0 then HandleSystemFailure(st) else st;
      assert st1.stripeValid[s := true] == st.stripeValid;
      SelectiveWrite(st1, s, e0, e1, old0, old1)
  }

  /** Stripe s holds the blocks e0 and e1 as its D0 and D1. */
  predicate HoldsBlocks(a: Disks, s: StripeId, e0: Codeword, e1: Codeword) {
    a[Roles(s).d0][s] == e0 && a[Roles(s).d1][s] == e1
  }

  /** The body of a write request once its stripe is known to exist: a
      valid stripe is updated selectively, an invalid one written in full. */
  function ApplyWrite(st: State, s: StripeId, e0: Codeword, e1: Codeword): (r: State)
    ensures HoldsBlocks(r.disks, s, e0, e1)
    ensures st.stripeValid[s] && HoldsBlocks(st.disks, s, e0, e1) ==> r == st
    ensures !(st.stripeValid[s] && HoldsBlocks(st.disks, s, e0, e1)) ==> ParityHolds(r.disks, s)
    ensures SameOutside(st.disks, r.disks, s)
    ensures forall e: DiskId, t: StripeId :: t != s ==> r.counters.perBlock[e][t] == st.counters.perBlock[e][t]
    ensures r.stripeValid == st.stripeValid[s := true]
    ensures SameControl(st, r)
    ensures r.failCount == st.failCount || r.failCount == 0
  {
    if st.stripeValid[s] then
      assert st.stripeValid[s := true] == st.stripeValid;
      UpdateValidStripe(st, s, e0, e1)
    else WriteToDisks(st, s, e0, e1)
  }

  /** handle_write_request: serves the head of the write buffer when the
      buffer is non-empty and the handler is enabled.  An address whose
      stripe is 6 or 7 raises IndexError on the validity table. */
  function HandleWrite(st: State): (r: Result<State>)
    ensures !(st.writeReady && |st.writeQueue.items| > 0) ==> r == Ok(st)
    ensures st.writeReady && |st.writeQueue.items| > 0 ==>
              var req := st.writeQueue.items[0];
              var s := StripeOf(req.address);
              && (r.Halt? <==> s >= NUM_STRIPES)
              && (r.Halt? ==> r == Halt(IndexOutOfRange(s)))
              && (r.Ok? ==> r.value.writeQueue.items == st.writeQueue.items[1..]
                            && Stores(r.value.disks, s, req.data)
                            && SameOutside(st.disks, r.value.disks, s)
                            && forall e: DiskId, t: StripeId :: t != s ==>
                                 r.value.counters.perBlock[e][t] == st.counters.perBlock[e][t])
    ensures r.Ok? ==> r.value.status == st.status && r.value.readQueue == st.readQueue
  {
    if !(st.writeReady && |st.writeQueue.items| > 0) then Ok(st)
    else
      var (req, rest) := Dequeue(st.writeQueue);
      var s := StripeOf(req.address);
      if s >= NUM_STRIPES then Halt(IndexOutOfRange(s))
      else Ok(ApplyWrite(st.(writeQueue := rest), s, Encode(Hi(req.data)), Encode(Lo(req.data))))
  }

  // ---------------------------------------------------------------------
  // Recovery

  /** healthy_disks, the disks a rebuild of disk f reads: the two entries
      of the list comprehension over [0, 1, 2]. */
  function Survivors(f: DiskId): (r: (DiskId, DiskId))
    ensures [r.0, r.1] == OtherDisks(f)
    ensures r.0 < r.1 && r.0 != f && r.1 != f
  {
    OtherDisksTable(f);
    var healthy := OtherDisks(f);
    (healthy[0], healthy[1])
  }

  /** The recovery loop from stripe s on: each block of disk f becomes the
      XOR of the surviving disks' blocks of the same stripe. */
  function RebuildFrom(a: Disks, f: DiskId, s: nat): (r: Disks)
    requires s <= NUM_STRIPES
    ensures forall t: StripeId :: s <= t ==> r[f][t] == XorBlocks(a[Survivors(f).0][t], a[Survivors(f).1][t])
    ensures forall t: StripeId :: t < s ==> r[f][t] == a[f][t]
    ensures forall d: DiskId, t: StripeId :: d != f ==> r[d][t] == a[d][t]
    decreases NUM_STRIPES - s
  {
    if s == NUM_STRIPES then a
    else
      var (o0, o1) := Survivors(f);
      RebuildFrom(Store(a, f, s, XorBlocks(a[o0][s], a[o1][s])), f, s + 1)
  }

  /** The rebuild of the one failed disk f: every block of f becomes the
      XOR of the surviving disks' blocks, f is marked healthy and the
      cached count is refreshed to zero. */
  function RebuildDisk(st: State, f: DiskId): (r: State)
    requires st.status[f] == Failed
    requires forall d: DiskId :: d != f ==> st.status[d] == Healthy
    ensures CountFailed(r.status) == 0 && r.failCount == 0
    ensures forall t: StripeId :: r.disks[f][t] == XorBlocks(st.disks[Survivors(f).0][t], st.disks[Survivors(f).1][t])
    ensures forall d: DiskId :: d != f ==> r.disks[d] == st.disks[d]
    ensures r.(disks := st.disks, status := st.status, failCount := st.failCount) == st
  {
    SingleFailure(st.status, f);
    var status := st.status[f := Healthy];
    var a := RebuildFrom(st.disks, f, 0);
    forall d: DiskId | d != f
      ensures a[d] == st.disks[d]
    {
      assert forall t: StripeId :: a[d][t] == st.disks[d][t];
    }
    st.(disks := a, status := status, failCount := CountFailed(status))
  }

  /** RAID5_recovery.  With no failed disk the lookup of the first failed
      disk raises IndexError; with more than one, the program exits when the
      cached count is positive and otherwise returns without change; with
      exactly one, that disk is rebuilt. */
  function Recover(st: State): (r: Result<State>)
    ensures CountFailed(st.status) == 0 ==> r == Halt(IndexOutOfRange(0))
    ensures CountFailed(st.status) > 1 ==> r == (if st.failCount > 0 then Halt(ProgramExit) else Ok(st))
    ensures CountFailed(st.status) == 1 ==>
              r.Ok? && forall f: DiskId :: st.status[f] == Failed ==> r.value == RebuildDisk(st, f)
  {
    var failed := FailedDisks(st.status);
    if |failed| > 1 then
      if st.failCount > 0 then Halt(ProgramExit) else Ok(st)
    else if |failed| == 0 then Halt(IndexOutOfRange(0))
    else
      CountOne(st.status);
      Ok(RebuildDisk(st, failed[0]))
  }

  // ---------------------------------------------------------------------
  // Read pipeline

  /** Queues a read request, or rejects it when the buffer is full. */
  function AddRead(st: State, address: int): (r: (State, Admission))
    ensures r.1 == RejectedFull <==> |st.readQueue.items| >= st.readQueue.capacity
    ensures r.1 == RejectedFull ==> r.0 == st
    ensures r.1 == Accepted ==> r.0 == st.(readQueue := Queue(st.readQueue.items + [ReadRequest(address)], st.readQueue.capacity))
  {
    var (q, a) := Enqueue(st.readQueue, ReadRequest(address));
    (st.(readQueue := q), a)
  }

  /** One data block of a read: check it, and when the check reports a
      single-bit error fix it and write the fixed block back. */
  function Scrub(a: Disks, d: DiskId, s: StripeId): (r: Result<(Disks, Codeword)>)
    ensures r.Ok? <==> Syndrome(a[d][s]) <= BLOCK_SIZE
    ensures r.Ok? ==> Syndrome(r.value.1) == 0 && r.value.0[d][s] == r.value.1
    ensures r.Ok? ==> forall e: DiskId, t: StripeId :: (e != d || t != s) ==> r.value.0[e][t] == a[e][t]
    ensures r.Ok? && Check(a[d][s]) == NoError ==> r.value == (a, a[d][s])
    ensures r.Ok? && Check(a[d][s]) == SBE ==> r.value.1 == Flip(a[d][s], Syndrome(a[d][s]) - 1)
  {
    var c := a[d][s];
    var fixed :- Correct(c);
    if Check(c) == SBE then Ok((Store(a, d, s, fixed), fixed)) else Ok((a, c))
  }

  datatype ReadReply = NoReply | Reply(data: bv16)

  datatype ReadStep = ReadStep(next: State, reply: ReadReply)

  /** The tail of a read once the stripe is known to exist and no disk is
      failed: D0 and D1 are scrubbed in that order and the reply is the
      decoding of the clean blocks now stored.  Only those two blocks can
      change. */
  function ReadStripe(st: State, s: StripeId): (r: Result<ReadStep>)
    ensures var l := Roles(s);
            r.Ok? <==> Syndrome(st.disks[l.d0][s]) <= BLOCK_SIZE && Syndrome(st.disks[l.d1][s]) <= BLOCK_SIZE
    ensures r.Ok? ==>
              var l := Roles(s);
              var a := r.value.next.disks;
              && Correct(st.disks[l.d0][s]) == Ok(a[l.d0][s])
              && Correct(st.disks[l.d1][s]) == Ok(a[l.d1][s])
              && Syndrome(a[l.d0][s]) == 0 && Syndrome(a[l.d1][s]) == 0
              && r.value.reply == Reply(Join(Decode(a[l.d0][s]), Decode(a[l.d1][s])))
              && a[l.parity][s] == st.disks[l.parity][s]
              && SameOutside(st.disks, a, s)
              && r.value.next == st.(disks := a)
  {
    var l := Roles(s);
    var (a1, c0) :- Scrub(st.disks, l.d0, s);
    var (a2, c1) :- Scrub(a1, l.d1, s);
    Ok(ReadStep(st.(disks := a2), Reply(Join(Decode(c0), Decode(c1)))))
  }

  /** handle_read_request: serves the head of the read buffer when the
      buffer is non-empty and the handler is enabled.  The failure count is
      refreshed from the disk health; two or more failed disks stop the
      program in an endless wait; one failed disk is rebuilt first.  The
      stripe index is checked only after that, when the data blocks are
      fetched, and each data block is scrubbed before decoding. */
  function HandleRead(st: State): (r: Result<ReadStep>)
    ensures !(st.readReady && |st.readQueue.items| > 0) ==> r == Ok(ReadStep(st, NoReply))
    ensures st.readReady && |st.readQueue.items| > 0 && CountFailed(st.status) > 1 ==>
              r == Halt(WaitForever(CountFailed(st.status)))
    ensures st.readReady && |st.readQueue.items| > 0 && StripeOf(st.readQueue.items[0].address) >= NUM_STRIPES ==>
              r.Halt?
    ensures r.Ok? && r.value.reply.Reply? ==>
              var s := StripeOf(st.readQueue.items[0].address);
              var a := r.value.next.disks;
              && s < NUM_STRIPES
              && Syndrome(a[Roles(s).d0][s]) == 0 && Syndrome(a[Roles(s).d1][s]) == 0
              && r.value.reply == Reply(Join(Decode(a[Roles(s).d0][s]), Decode(a[Roles(s).d1][s])))
              && r.value.next.readQueue.items == st.readQueue.items[1..]
              && CountFailed(r.value.next.status) == 0
              && r.value.next.failCount == 0
  {
    if !(st.readReady && |st.readQueue.items| > 0) then Ok(ReadStep(st, NoReply))
    else
      var (req, rest) := Dequeue(st.readQueue);
      var s := StripeOf(req.address);
      var n := CountFailed(st.status);
      var st1 := st.(readQueue := rest, failCount := n);
      if n > 1 then Halt(WaitForever(n))
      else
        // with exactly one failed disk the recovery always completes
        var st2 := if n == 1 then Recover(st1).value else st1;
        if s >= NUM_STRIPES then Halt(IndexOutOfRange(s))
        else ReadStripe(st2, s)
  }

  // ---------------------------------------------------------------------
  // Fault injection driven by the test scenarios

  /** `disk_status[d] = 0`: marks a disk failed without touching its data. */
  function FailDisk(st: State, d: DiskId): (r: State)
    ensures r.status[d] == Failed
    ensures forall e: DiskId :: e != d ==> r.status[e] == st.status[e]
    ensures r.(status := st.status) == st
  {
    st.(status := st.status[d := Failed])
  }

  /** reset_disk on the state. */
  function ResetDiskStep(st: State, disk: int): (r: State)
    ensures 0 <= disk < NUM_DISKS ==> forall s: StripeId :: r.disks[disk][s] == ZERO_BLOCK
    ensures forall d: DiskId, s: StripeId :: d != disk ==> r.disks[d][s] == st.disks[d][s]
    ensures forall d: DiskId :: d != disk ==> r.disks[d] == st.disks[d]
    ensures r.(disks := st.disks) == st
  {
    st.(disks := ResetDisk(st.disks, disk))
  }

  /** Flips bit p of the block in cell (d, s). */
  function FlipStep(st: State, d: DiskId, s: StripeId, p: BitIndex): (r: State)
    ensures r.disks[d][s] == Flip(st.disks[d][s], p)
    ensures forall e: DiskId, t: StripeId :: (e != d || t != s) ==> r.disks[e][t] == st.disks[e][t]
    ensures r.(disks := st.disks) == st
  {
    st.(disks := InjectBitFlip(st.disks, d, s, p))
  }
}

=== FILE: read_props.dfy ===
/** Properties of recovery and of the read pipeline: XOR reconstruction of
    a lost disk, single-bit correction on read, reading through a disk loss,
    and the fatal outcome with two failed disks. */
module ReadProps {
  import opened Faults
  import opened Hamming
  import opened Storage
  import opened Fifo
  import opened Raid

  /** The request at the head of the read buffer. */
  function Head(st: State): ReadRequest
    requires |st.readQueue.items| > 0
  {
    st.readQueue.items[0]
  }

  /** Every stripe satisfies the parity identity. */
  ghost predicate ParityEverywhere(a: Disks) {
    forall s: StripeId :: ParityHolds(a, s)
  }

  /** In a stripe satisfying the parity identity, the XOR of the two blocks
      on the disks other than f is f's block, whichever role f plays. */
  lemma XorOfSurvivors(a: Disks, s: StripeId, f: DiskId)
    requires ParityHolds(a, s)
    ensures XorBlocks(a[Survivors(f).0][s], a[Survivors(f).1][s]) == a[f][s]
  {
    var l := Roles(s);
    XorRecovers(a[l.d0][s], a[l.d1][s]);
    if l.parity == 0 {
      assert l == Layout(1, 2, 0);
    } else if l.parity == 1 {
      assert l == Layout(0, 2, 1);
    } else {
      assert l == Layout(0, 1, 2);
    }
  }

  /** Rebuilding disk f from an array that agrees with a on the other two
      disks gives back a, when a satisfies the parity identity everywhere:
      whatever f held before (a zeroed disk after reset_disk, say) is
      replaced by its original contents. */
  lemma RecoveryRestores(st: State, a: Disks, f: DiskId)
    requires st.status[f] == Failed
    requires forall d: DiskId :: d != f ==> st.status[d] == Healthy
    requires ParityEverywhere(a)
    requires forall d: DiskId :: d != f ==> st.disks[d] == a[d]
    ensures RebuildDisk(st, f).disks == a
  {
    var r := RebuildDisk(st, f).disks;
    var (o0, o1) := Survivors(f);
    forall t: StripeId
      ensures r[f][t] == a[f][t]
    {
      XorOfSurvivors(a, t, f);
    }
    assert r[f] == a[f];
  }

  /** Scrubbing a block within one bit of the encoding of v stores and
      returns that encoding. */
  lemma ScrubWithinOneBit(a: Disks, d: DiskId, s: StripeId, v: Byte)
    requires WithinOneBit(a[d][s], Encode(v))
    ensures var r := Scrub(a, d, s);
            && r.Ok?
            && r.value.1 == Encode(v)
            && r.value.0 == Store(a, d, s, Encode(v))
  {
    CorrectWithinOneBit(v, a[d][s]);
    if Check(a[d][s]) == NoError {
      var row: seq<Codeword> := a[d][s := a[d][s]];
      assert row == a[d];
      assert a[d := row] == a;
    }
  }

  /** A served read with every disk healthy and an existing stripe is
      the stripe read from the state with the request removed. */
  lemma HealthyReadIsReadStripe(st: State)
    requires st.readReady && |st.readQueue.items| > 0
    requires StripeOf(Head(st).address) < NUM_STRIPES
    requires CountFailed(st.status) == 0
    ensures HandleRead(st) ==
              ReadStripe(st.(readQueue := Dequeue(st.readQueue).1, failCount := 0), StripeOf(Head(st).address))
  {
  }

  /** Reading a stripe whose data blocks are each within one bit of the
      encodings of x returns x, writes the corrected blocks back, and leaves
      the parity block and every other stripe alone. */
  lemma ReadStripeCorrects(st: State, s: StripeId, x: bv16)
    requires WithinOneBit(st.disks[Roles(s).d0][s], Encode(Hi(x)))
    requires WithinOneBit(st.disks[Roles(s).d1][s], Encode(Lo(x)))
    ensures var r := ReadStripe(st, s);
            && r.Ok?
            && r.value.reply == Reply(x)
            && Stores(r.value.next.disks, s, x)
  {
    var l := Roles(s);
    ScrubWithinOneBit(st.disks, l.d0, s, Hi(x));
    var a1 := Store(st.disks, l.d0, s, Encode(Hi(x)));
    ScrubWithinOneBit(a1, l.d1, s, Lo(x));
    DecodeEncode(Hi(x));
    DecodeEncode(Lo(x));
    JoinSplit(x, 0, 0);
  }

  /** With every disk healthy, a read of a stripe whose data blocks are
      each within one bit of the encodings of x returns x, writes the
      corrected blocks back, and leaves the parity block and every other
      stripe alone. */
  lemma ReadCorrectsSingleBitErrors(st: State, x: bv16)
    requires st.readReady && |st.readQueue.items| > 0
    requires StripeOf(Head(st).address) < NUM_STRIPES
    requires CountFailed(st.status) == 0
    requires var s := StripeOf(Head(st).address);
             && WithinOneBit(st.disks[Roles(s).d0][s], Encode(Hi(x)))
             && WithinOneBit(st.disks[Roles(s).d1][s], Encode(Lo(x)))
    ensures var s := StripeOf(Head(st).address);
            var r := HandleRead(st);
            && r.Ok?
            && r.value.reply == Reply(x)
            && Stores(r.value.next.disks, s, x)
            && r.value.next.disks[Roles(s).parity][s] == st.disks[Roles(s).parity][s]
            && SameOutside(st.disks, r.value.next.disks, s)
  {
    HealthyReadIsReadStripe(st);
    ReadStripeCorrects(st.(readQueue := Dequeue(st.readQueue).1, failCount := 0), StripeOf(Head(st).address), x);
  }

  /** A stripe storing x reads back as x and nothing is rewritten. */
  lemma ReadStripeClean(st: State, s: StripeId, x: bv16)
    requires Stores(st.disks, s, x)
    ensures ReadStripe(st, s) == Ok(ReadStep(st, Reply(x)))
  {
    var l := Roles(s);
    assert Scrub(st.disks, l.d0, s) == Ok((st.disks, st.disks[l.d0][s]));
    assert Scrub(st.disks, l.d1, s) == Ok((st.disks, st.disks[l.d1][s]));
    DecodeEncode(Hi(x));
    DecodeEncode(Lo(x));
    JoinSplit(x, 0, 0);
  }

  /** A served read with exactly one failed disk f and an existing stripe
      first rebuilds f (clearing the cached failure count) and then reads
      the stripe. */
  lemma DegradedReadIsRebuildThenRead(st: State, f: DiskId)
    requires st.readReady && |st.readQueue.items| > 0
    requires StripeOf(Head(st).address) < NUM_STRIPES
    requires st.status[f] == Failed
    requires forall d: DiskId :: d != f ==> st.status[d] == Healthy
    ensures HandleRead(st) ==
              ReadStripe(RebuildDisk(st.(readQueue := Dequeue(st.readQueue).1, failCount := 1), f),
                         StripeOf(Head(st).address))
  {
    SingleFailure(st.status, f);
  }

  /** Marking a disk failed and zeroing it, then rebuilding it from an
      array satisfying the parity identity, gives back the original array
      with every disk healthy. */
  lemma LossRebuilt(st: State, f: DiskId)
    requires |st.readQueue.items| > 0
    requires st.status == ALL_HEALTHY
    requires ParityEverywhere(st.disks)
    ensures var lost := ResetDiskStep(FailDisk(st, f), f);
            var st2 := RebuildDisk(lost.(readQueue := Dequeue(lost.readQueue).1, failCount := 1), f);
            st2.disks == st.disks && st2.status == ALL_HEALTHY
  {
    var lost := ResetDiskStep(FailDisk(st, f), f);
    var st1 := lost.(readQueue := Dequeue(lost.readQueue).1, failCount := 1);
    RecoveryRestores(st1, st.disks, f);
    var st2 := RebuildDisk(st1, f);
    assert st2.status[0] == Healthy && st2.status[1] == Healthy && st2.status[2] == Healthy;
  }

  /** Losing one disk: a stripe storing x, in an array satisfying the
      parity identity, still reads back as x after its disk is marked failed
      and zeroed.  The read rebuilds the lost disk to its original contents
      and marks it healthy again. */
  lemma ReadAfterDiskLoss(st: State, f: DiskId, x: bv16)
    requires st.readReady && |st.readQueue.items| > 0
    requires StripeOf(Head(st).address) < NUM_STRIPES
    requires st.status == ALL_HEALTHY
    requires ParityEverywhere(st.disks)
    requires Stores(st.disks, StripeOf(Head(st).address), x)
    ensures var lost := ResetDiskStep(FailDisk(st, f), f);
            var r := HandleRead(lost);
            && r.Ok?
            && r.value.reply == Reply(x)
            && r.value.next.disks == st.disks
            && r.value.next.status == ALL_HEALTHY
  {
    var lost := ResetDiskStep(FailDisk(st, f), f);
    DegradedReadIsRebuildThenRead(lost, f);
    LossRebuilt(st, f);
    var st2 := RebuildDisk(lost.(readQueue := Dequeue(lost.readQueue).1, failCount := 1), f);
    ReadStripeClean(st2, StripeOf(Head(st).address), x);
  }

  /** Two or more failed disks: serving a read never completes, whatever
      the disks hold. */
  lemma ReadFatalWithTwoFailures(st: State, f: DiskId, g: DiskId)
    requires st.readReady && |st.readQueue.items| > 0
    requires f != g
    ensures var lost := FailDisk(FailDisk(st, f), g);
            HandleRead(lost).Halt? && HandleRead(lost).fault.WaitForever?
  {
    var lost := FailDisk(FailDisk(st, f), g);
    assert lost.status[f] == Failed && lost.status[g] == Failed;
    assert CountFailed(lost.status) >= 2;
  }

  /** A write followed by a read of the same address returns the written
      data, with every disk healthy and both handlers enabled. */
  lemma WriteThenRead(st: State, address: int, x: bv16)
    requires st.writeReady && st.readReady
    requires st.writeQueue.items == [] && st.writeQueue.capacity > 0
    requires st.readQueue.items == [] && st.readQueue.capacity > 0
    requires CountFailed(st.status) == 0
    requires StripeOf(address) < NUM_STRIPES
    ensures var st1 := AddWrite(st, address, x).0;
            var w := HandleWrite(st1);
            && w.Ok?
            && var st2 := AddRead(w.value, address).0;
            && var r := HandleRead(st2);
            && r.Ok? && r.value.reply == Reply(x)
  {
    var st1 := AddWrite(st, address, x).0;
    var s: StripeId := StripeOf(address);
    var w := HandleWrite(st1);
    assert w.Ok? && Stores(w.value.disks, s, x);
    var st2 := AddRead(w.value, address).0;
    assert Head(st2) == ReadRequest(address);
    HealthyReadIsReadStripe(st2);
    ReadStripeClean(st2.(readQueue := Dequeue(st2.readQueue).1, failCount := 0), s, x);
  }
}

=== FILE: storage.dfy ===
/** The storage array: three disks of six 12-bit blocks, rotating parity
    placement, block XOR, disk health and the wear counters. */
module Storage {
  import opened Hamming

  const NUM_DISKS := 3
  const NUM_STRIPES := 6

  type DiskId = d: int | 0 <= d < NUM_DISKS
  type StripeId = s: int | 0 <= s < NUM_STRIPES

  const ZERO_BLOCK: Codeword := [0, 0, 0, 0, 0, 0, 0, 0, 0, 0, 0, 0]
  const ZERO_DISK: seq<Codeword> := [ZERO_BLOCK, ZERO_BLOCK, ZERO_BLOCK, ZERO_BLOCK, ZERO_BLOCK, ZERO_BLOCK]

  /** disks[d][s] is the block of stripe s on disk d. */
  type Disks = a: seq<seq<Codeword>> | |a| == NUM_DISKS && forall d :: 0 <= d < |a| ==> |a[d]| == NUM_STRIPES
    witness seq(NUM_DISKS, _ => seq(NUM_STRIPES, _ => ZERO_BLOCK))

  /** Replaces the block in one cell; every other cell keeps its block. */
  function Store(a: Disks, d: DiskId, s: StripeId, c: Codeword): (r: Disks)
    ensures r[d][s] == c
    ensures forall e: DiskId, t: StripeId :: (e != d || t != s) ==> r[e][t] == a[e][t]
  {
    var row: seq<Codeword> := a[d][s := c];
    a[d := row]
  }

  /** Two cells hold the same blocks in every stripe other than s. */
  ghost predicate SameOutside(a: Disks, b: Disks, s: StripeId) {
    forall d: DiskId, t: StripeId :: t != s ==> a[d][t] == b[d][t]
  }

  // ---------------------------------------------------------------------
  // Block XOR

  function XorBlocks(a: Codeword, b: Codeword): (r: Codeword)
    ensures forall i :: 0 <= i < BLOCK_SIZE ==> r[i] == a[i] ^ b[i]
  {
    seq(BLOCK_SIZE, i requires 0 <= i < BLOCK_SIZE => a[i] ^ b[i])
  }

  /** XOR-ing any two of {a, b, a XOR b} yields the third, in either order. */
  lemma XorRecovers(a: Codeword, b: Codeword)
    ensures XorBlocks(XorBlocks(a, b), b) == a
    ensures XorBlocks(b, XorBlocks(a, b)) == a
    ensures XorBlocks(XorBlocks(a, b), a) == b
    ensures XorBlocks(a, XorBlocks(a, b)) == b
    ensures XorBlocks(b, a) == XorBlocks(a, b)
  {
    var p := XorBlocks(a, b);
    assert XorBlocks(p, b) == a by {
      forall i | 0 <= i < BLOCK_SIZE ensures XorBlocks(p, b)[i] == a[i] {}
    }
    assert XorBlocks(b, p) == a by {
      forall i | 0 <= i < BLOCK_SIZE ensures XorBlocks(b, p)[i] == a[i] {}
    }
    assert XorBlocks(p, a) == b by {
      forall i | 0 <= i < BLOCK_SIZE ensures XorBlocks(p, a)[i] == b[i] {}
    }
    assert XorBlocks(a, p) == b by {
      forall i | 0 <= i < BLOCK_SIZE ensures XorBlocks(a, p)[i] == b[i] {}
    }
    assert XorBlocks(b, a) == p by {
      forall i | 0 <= i < BLOCK_SIZE ensures XorBlocks(b, a)[i] == p[i] {}
    }
  }

  // ---------------------------------------------------------------------
  // Placement

  /** The stripe an address maps to, `address & 0x07`.  For every integer,
      negative ones included, the low three bits equal the remainder
      modulo 8. */
  function StripeOf(address: int): (s: int)
    ensures 0 <= s < 8
    ensures (address - s) % 8 == 0
  {
    address % 8
  }

  /** `(stripe - 1) % NUM_DISKS` with Python's modulo, which is never
      negative for a positive divisor; Dafny's `%` agrees. */
  function ParityDisk(stripe: int): DiskId
  {
    (stripe - 1) % NUM_DISKS
  }

  /** Parity rotates 2, 0, 1, 2, 0, 1 over the six stripes, so every disk
      holds the parity of exactly two stripes. */
  lemma ParityRotation()
    ensures seq(NUM_STRIPES, s => ParityDisk(s)) == [2, 0, 1, 2, 0, 1]
    ensures |set s: StripeId | ParityDisk(s) == 0| == 2
    ensures |set s: StripeId | ParityDisk(s) == 1| == 2
    ensures |set s: StripeId | ParityDisk(s) == 2| == 2
  {
    assert seq(NUM_STRIPES, s => ParityDisk(s)) == [2, 0, 1, 2, 0, 1];
    assert (set s: StripeId | ParityDisk(s) == 0) == {1, 4};
    assert (set s: StripeId | ParityDisk(s) == 1) == {2, 5};
    assert (set s: StripeId | ParityDisk(s) == 2) == {0, 3};
  }

  /** Python's list.index: the position of the first occurrence of v. */
  function IndexOf(xs: seq<int>, v: int): (k: nat)
    requires v in xs
    ensures k < |xs| && xs[k] == v && v !in xs[..k]
  {
    if xs[0] == v then 0 else 1 + IndexOf(xs[1..], v)
  }

  /** Python's list.remove: drops the first occurrence of v and keeps the
      order of the rest.  The contract states the multiset; DataDisksTable
      pins the order for the one list the write path applies it to. */
  function RemoveFirst(xs: seq<int>, v: int): (r: seq<int>)
    requires v in xs
    ensures |r| == |xs| - 1
    ensures multiset(r) == multiset(xs) - multiset{v}
  {
    var k := IndexOf(xs, v);
    assert xs == xs[..k] + [v] + xs[k+1..];
    xs[..k] + xs[k+1..]
  }

  /** The list comprehension `[i for i in xs if i != v]`, which keeps the
      order of xs.  The contract states membership; OtherDisksTable pins
      the order for the one list the rebuild applies it to. */
  function Without(xs: seq<int>, v: int): (r: seq<int>)
    ensures v !in r
    ensures forall x :: x in r <==> x in xs && x != v
    ensures |r| <= |xs|
  {
    if xs == [] then []
    else (if xs[0] == v then [] else [xs[0]]) + Without(xs[1..], v)
  }

  const ALL_DISKS: seq<int> := [0, 1, 2]

  /** The write path's data disks: [0, 1, 2] with the parity disk removed. */
  function DataDisks(parity: DiskId): seq<int> {
    RemoveFirst(ALL_DISKS, parity)
  }

  /** The disks a rebuild reads: every disk other than the failed one. */
  function OtherDisks(failed: DiskId): seq<int> {
    Without(ALL_DISKS, failed)
  }

  /** The read path's table of where D0, D1 and the parity block live. */
  datatype Layout = Layout(d0: DiskId, d1: DiskId, parity: DiskId)

  function LayoutFor(parity: DiskId): Layout {
    if parity == 0 then Layout(1, 2, 0)
    else if parity == 1 then Layout(0, 2, 1)
    else Layout(0, 1, 2)
  }

  lemma DataDisksTable(p: DiskId)
    ensures DataDisks(p) == [LayoutFor(p).d0, LayoutFor(p).d1]
  {
    var k := IndexOf(ALL_DISKS, p);
    assert k == p;
    if p == 0 {
      assert ALL_DISKS[..0] + ALL_DISKS[1..] == [1, 2];
    } else if p == 1 {
      assert ALL_DISKS[..1] + ALL_DISKS[2..] == [0, 2];
    } else {
      assert ALL_DISKS[..2] + ALL_DISKS[3..] == [0, 1];
    }
  }

  lemma OtherDisksTable(p: DiskId)
    ensures OtherDisks(p) == [LayoutFor(p).d0, LayoutFor(p).d1]
  {
    assert Without([], p) == [];
    assert Without([2], p) == (if p == 2 then [] else [2]) + Without([], p);
    assert Without([1, 2], p) == (if p == 1 then [] else [1]) + Without([2], p);
    assert Without([0, 1, 2], p) == (if p == 0 then [] else [0]) + Without([1, 2], p);
  }

  /** The write path, the read path and the rebuild agree on placement: the
      data disks are the two non-parity disks in ascending order, and the
      three roles cover the three disks once each. */
  lemma PlacementAgrees(parity: DiskId)
    ensures var l := LayoutFor(parity);
            && l.parity == parity
            && DataDisks(parity) == [l.d0, l.d1]
            && OtherDisks(parity) == [l.d0, l.d1]
            && l.d0 < l.d1
            && l.d0 != parity && l.d1 != parity
  {
    DataDisksTable(parity);
    OtherDisksTable(parity);
  }

  // ---------------------------------------------------------------------
  // Disk health

  datatype Health = Healthy | Failed

  type Statuses = h: seq<Health> | |h| == NUM_DISKS witness [Healthy, Healthy, Healthy]

  /** `[i for i, status in enumerate(disk_status) if status == 0]`, from
      index i on. */
  function FailedFrom(status: seq<Health>, i: nat): (r: seq<nat>)
    requires i <= |status|
    decreases |status| - i
    ensures forall j :: 0 <= j < |r| ==> i <= r[j] < |status| && status[r[j]] == Failed
    ensures |r| <= |status| - i
  {
    if i == |status| then []
    else (if status[i] == Failed then [i] else []) + FailedFrom(status, i + 1)
  }

  function Mark(status: Statuses, d: DiskId): seq<nat> {
    if status[d] == Failed then [d] else []
  }

  /** The failed disks in ascending order. */
  function FailedDisks(status: Statuses): (r: seq<nat>)
    ensures r == Mark(status, 0) + Mark(status, 1) + Mark(status, 2)
  {
    assert FailedFrom(status, 3) == [];
    assert FailedFrom(status, 2) == Mark(status, 2) + FailedFrom(status, 3);
    assert FailedFrom(status, 1) == Mark(status, 1) + FailedFrom(status, 2);
    assert FailedFrom(status, 0) == Mark(status, 0) + FailedFrom(status, 1);
    FailedFrom(status, 0)
  }

  /** `disk_status.count(0)`: the number of failed disks. */
  function CountFailed(status: Statuses): (n: nat)
    ensures n <= NUM_DISKS
    ensures n == 0 <==> forall d: DiskId :: status[d] == Healthy
  {
    |FailedDisks(status)|
  }

  /** Exactly one failed disk f: the failed list is [f], and marking f
      healthy leaves no failed disk. */
  lemma SingleFailure(status: Statuses, f: DiskId)
    requires status[f] == Failed
    requires forall d: DiskId :: d != f ==> status[d] == Healthy
    ensures FailedDisks(status) == [f]
    ensures CountFailed(status) == 1
    ensures CountFailed(status[f := Healthy]) == 0
  {
  }

  /** A count of one names the failed disk: the first failed disk is failed
      and every other disk is healthy. */
  lemma CountOne(status: Statuses)
    requires CountFailed(status) == 1
    ensures var f := FailedDisks(status)[0];
            && f < NUM_DISKS && status[f] == Failed
            && forall d: DiskId :: d != f ==> status[d] == Healthy
  {
  }

  // ---------------------------------------------------------------------
  // Fault injection

  /** Overwrites every block of one disk with zeros; an index outside
      0..NUM_DISKS-1 is reported and changes nothing. */
  function ResetDisk(a: Disks, disk: int): (r: Disks)
    ensures 0 <= disk < NUM_DISKS ==> forall s: StripeId :: r[disk][s] == ZERO_BLOCK
    ensures forall d: DiskId, s: StripeId :: d != disk ==> r[d][s] == a[d][s]
    ensures forall d: DiskId :: d != disk ==> r[d] == a[d]
  {
    if 0 <= disk < NUM_DISKS then a[disk := ZERO_DISK] else a
  }

  /** Flips one stored bit, the fault the test scenarios inject. */
  function InjectBitFlip(a: Disks, d: DiskId, s: StripeId, p: BitIndex): (r: Disks)
    ensures r[d][s] == Flip(a[d][s], p)
    ensures forall e: DiskId, t: StripeId :: (e != d || t != s) ==> r[e][t] == a[e][t]
  {
    Store(a, d, s, Flip(a[d][s], p))
  }

  // ---------------------------------------------------------------------
  // Wear counters

  type DiskCounts = c: seq<nat> | |c| == NUM_DISKS witness [0, 0, 0]

  type BlockCounts = c: seq<seq<nat>> | |c| == NUM_DISKS && forall d :: 0 <= d < |c| ==> |c[d]| == NUM_STRIPES
    witness seq(NUM_DISKS, _ => seq(NUM_STRIPES, _ => 0))

  /** write_count_per_disk and write_count_per_block. */
  datatype Counters = Counters(perDisk: DiskCounts, perBlock: BlockCounts)

  const NO_WRITES_ON_DISK: seq<nat> := [0, 0, 0, 0, 0, 0]
  const NO_WRITES := Counters([0, 0, 0], [NO_WRITES_ON_DISK, NO_WRITES_ON_DISK, NO_WRITES_ON_DISK])

  function Total(k: Counters): nat {
    k.perDisk[0] + k.perDisk[1] + k.perDisk[2]
  }

  /** Records one block write against disk d, stripe s. */
  function Charge(k: Counters, d: DiskId, s: StripeId): (r: Counters)
    ensures Total(r) == Total(k) + 1
    ensures r.perDisk[d] == k.perDisk[d] + 1 && r.perBlock[d][s] == k.perBlock[d][s] + 1
    ensures forall e: DiskId :: e != d ==> r.perDisk[e] == k.perDisk[e]
    ensures forall e: DiskId, t: StripeId :: (e != d || t != s) ==> r.perBlock[e][t] == k.perBlock[e][t]
  {
    var row: seq<nat> := k.perBlock[d][s := k.perBlock[d][s] + 1];
    Counters(k.perDisk[d := k.perDisk[d] + 1], k.perBlock[d := row])
  }

  /** r counts exactly n more writes than k on disk d, all of them against
      the block of stripe s. */
  predicate Bumped(k: Counters, r: Counters, d: DiskId, s: StripeId, n: nat) {
    r.perDisk[d] == k.perDisk[d] + n && r.perBlock[d][s] == k.perBlock[d][s] + n
  }
}

=== FILE: write_props.dfy ===
/** Properties of the write pipeline: the parity identity and frame, the
    number of blocks and counters a write touches, and idempotence. */
module WriteProps {
  import opened Faults
  import opened Hamming
  import opened Storage
  import opened Fifo
  import opened Raid

  /** The request at the head of the write buffer, and its stripe. */
  function Head(st: State): WriteRequest
    requires |st.writeQueue.items| > 0
  {
    st.writeQueue.items[0]
  }

  /** A served write to an existing stripe completes; afterwards the stripe
      stores the request's data.  Unless it was skipped it satisfies the
      parity identity, and a skip leaves the identity as it was.  No other
      stripe's blocks or validity flag change. */
  lemma WriteKeepsParity(st: State)
    requires st.writeReady && |st.writeQueue.items| > 0
    requires StripeOf(Head(st).address) < NUM_STRIPES
    ensures var s := StripeOf(Head(st).address);
            var r := HandleWrite(st);
            && r.Ok?
            && Stores(r.value.disks, s, Head(st).data)
            && (r.value.disks != st.disks ==> ParityHolds(r.value.disks, s))
            && (ParityHolds(st.disks, s) ==> ParityHolds(r.value.disks, s))
            && SameOutside(st.disks, r.value.disks, s)
            && forall t: StripeId :: t != s ==> r.value.stripeValid[t] == st.stripeValid[t]
  {
    var s: StripeId := StripeOf(Head(st).address);
    var st1 := st.(writeQueue := Dequeue(st.writeQueue).1);
    var e0, e1 := Encode(Hi(Head(st).data)), Encode(Lo(Head(st).data));
    assert HandleWrite(st) == Ok(ApplyWrite(st1, s, e0, e1));
  }

  /** A write to a valid stripe that is not skipped is the selective
      update, from the state with the cached failure count cleared. */
  lemma UpdateIsSelective(st: State, s: StripeId, e0: Codeword, e1: Codeword)
    requires st.stripeValid[s]
    requires !HoldsBlocks(st.disks, s, e0, e1)
    ensures ApplyWrite(st, s, e0, e1) ==
              SelectiveWrite(st.(failCount := 0), s, e0, e1, st.disks[Roles(s).d0][s], st.disks[Roles(s).d1][s])
  {
  }

  /** Write amplification on a valid stripe.  An identical write changes
      no block and no counter.  When only one half changed, the parity block
      and that half are written, the other data block keeps its contents,
      and two writes are counted.  When both changed, all three blocks are
      written and three writes are counted.  WriteCharges says which disks
      the writes are counted against. */
  lemma WriteAmplification(st: State, s: StripeId, e0: Codeword, e1: Codeword)
    requires st.stripeValid[s]
    ensures var r := ApplyWrite(st, s, e0, e1);
            var l := Roles(s);
            var old0, old1 := st.disks[l.d0][s], st.disks[l.d1][s];
            && (e0 == old0 && e1 == old1 ==> r.disks == st.disks && r.counters == st.counters)
            && (e0 == old0 && e1 != old1 ==>
                  && r.disks[l.parity][s] == XorBlocks(e0, e1) && r.disks[l.d1][s] == e1
                  && r.disks[l.d0][s] == old0
                  && Total(r.counters) == Total(st.counters) + 2)
            && (e0 != old0 && e1 == old1 ==>
                  && r.disks[l.parity][s] == XorBlocks(e0, e1) && r.disks[l.d0][s] == e0
                  && r.disks[l.d1][s] == old1
                  && Total(r.counters) == Total(st.counters) + 2)
            && (e0 != old0 && e1 != old1 ==>
                  && r.disks[l.parity][s] == XorBlocks(e0, e1)
                  && r.disks[l.d0][s] == e0 && r.disks[l.d1][s] == e1
                  && Total(r.counters) == Total(st.counters) + 3)
  {
    var l := Roles(s);
    var old0, old1 := st.disks[l.d0][s], st.disks[l.d1][s];
    if !(e0 == old0 && e1 == old1) {
      UpdateIsSelective(st, s, e0, e1);
      ChargeCounts(s, e0, e1, old0, old1);
    }
  }

  /** The disks a write to a valid stripe is counted against, per disk and
      per block.  Only D0 changed: the parity disk and D0 once each, D1
      not at all.  Only D1 changed: D1 once, and, unless the parity lives
      on disk 2 (CounterQuirk), the parity disk once and D0 not at all.
      Both changed: every disk once.  No counter of another stripe moves. */
  lemma WriteCharges(st: State, s: StripeId, e0: Codeword, e1: Codeword)
    requires st.stripeValid[s]
    ensures var k, r := st.counters, ApplyWrite(st, s, e0, e1).counters;
            var l := Roles(s);
            var old0, old1 := st.disks[l.d0][s], st.disks[l.d1][s];
            && (e0 == old0 && e1 != old1 ==>
                  && Bumped(k, r, l.d1, s, 1)
                  && (l.parity != 2 ==> Bumped(k, r, l.parity, s, 1) && Bumped(k, r, l.d0, s, 0)))
            && (e0 != old0 && e1 == old1 ==>
                  Bumped(k, r, l.parity, s, 1) && Bumped(k, r, l.d0, s, 1) && Bumped(k, r, l.d1, s, 0))
            && (e0 != old0 && e1 != old1 ==>
                  Bumped(k, r, l.parity, s, 1) && Bumped(k, r, l.d0, s, 1) && Bumped(k, r, l.d1, s, 1))
            && forall e: DiskId, t: StripeId :: t != s ==> r.perBlock[e][t] == k.perBlock[e][t]
  {
    var l := Roles(s);
    var old0, old1 := st.disks[l.d0][s], st.disks[l.d1][s];
    if !(e0 == old0 && e1 == old1) {
      UpdateIsSelective(st, s, e0, e1);
      SelectiveCharged(st.(failCount := 0), s, e0, e1, old0, old1);
    }
  }

  /** WriteCharges for the selective update itself. */
  lemma SelectiveCharged(st: State, s: StripeId, e0: Codeword, e1: Codeword, old0: Codeword, old1: Codeword)
    ensures var k, r := st.counters, SelectiveWrite(st, s, e0, e1, old0, old1).counters;
            var l := Roles(s);
            && (e0 == old0 && e1 != old1 ==>
                  && Bumped(k, r, l.d1, s, 1)
                  && (l.parity != 2 ==> Bumped(k, r, l.parity, s, 1) && Bumped(k, r, l.d0, s, 0)))
            && (e0 != old0 && e1 == old1 ==>
                  Bumped(k, r, l.parity, s, 1) && Bumped(k, r, l.d0, s, 1) && Bumped(k, r, l.d1, s, 0))
            && (e0 != old0 && e1 != old1 ==>
                  Bumped(k, r, l.parity, s, 1) && Bumped(k, r, l.d0, s, 1) && Bumped(k, r, l.d1, s, 1))
  {
    ChargeCounts(s, e0, e1, old0, old1);
  }

  /** How many writes each selective branch charges to each disk. */
  lemma ChargeCounts(s: StripeId, e0: Codeword, e1: Codeword, old0: Codeword, old1: Codeword)
    ensures var l := Roles(s);
            var m := multiset(SelectiveCharges(s, e0, e1, old0, old1));
            && |SelectiveCharges(s, e0, e1, old0, old1)| == (if (e0 == old0) != (e1 == old1) then 2 else 3)
            && (e0 == old0 && e1 != old1 ==>
                  m[l.d1] == 1 && (l.parity != 2 ==> m[l.parity] == 1 && m[l.d0] == 0))
            && (e0 != old0 && e1 == old1 ==> m[l.parity] == 1 && m[l.d0] == 1 && m[l.d1] == 0)
            && (e0 != old0 && e1 != old1 ==> m[l.parity] == 1 && m[l.d0] == 1 && m[l.d1] == 1)
  {
    var l := Roles(s);
    var ds: seq<DiskId> := SelectiveCharges(s, e0, e1, old0, old1);
    if e0 == old0 && e1 != old1 {
      if l.parity == 2 {
        assert ds == [0, 1];
      } else {
        assert ds == [l.parity, l.d1];
      }
    } else if e0 != old0 && e1 == old1 {
      assert ds == [l.parity, l.d0];
    } else if e0 != old0 && e1 != old1 {
      assert ds == [l.parity, l.d0, l.d1];
    }
  }

  /** The counter quirk: when only D1 changed and the parity lives on disk
      2, disks 2 and 1 are written but the writes are counted on disks 0
      and 1, so disk 0 is charged for a block it did not receive and disk 2
      is not charged for the one it did. */
  lemma CounterQuirk(st: State, s: StripeId, e0: Codeword, e1: Codeword)
    requires st.stripeValid[s] && ParityDisk(s) == 2
    requires e0 == st.disks[0][s] && e1 != st.disks[1][s]
    ensures var r := ApplyWrite(st, s, e0, e1);
            var k := st.counters;
            && r.disks[2][s] == XorBlocks(e0, e1) && r.disks[1][s] == e1
            && r.disks[0][s] == st.disks[0][s]
            && r.counters.perDisk == [k.perDisk[0] + 1, k.perDisk[1] + 1, k.perDisk[2]]
            && r.counters.perBlock[0][s] == k.perBlock[0][s] + 1
            && r.counters.perBlock[1][s] == k.perBlock[1][s] + 1
            && r.counters.perBlock[2][s] == k.perBlock[2][s]
  {
    var old0, old1 := st.disks[0][s], st.disks[1][s];
    assert Roles(s) == Layout(0, 1, 2);
    UpdateIsSelective(st, s, e0, e1);
    assert SelectiveCharges(s, e0, e1, old0, old1) == [0, 1];
    var k1 := Charge(st.counters, 0, s);
    assert ChargeAll(st.counters, [0, 1], s) == ChargeAll(k1, [1], s);
    assert ChargeAll(k1, [1], s) == Charge(k1, 1, s);
  }

  /** Writing the same data to the same stripe twice: the second write is
      skipped and leaves the whole state as the first one left it. */
  lemma WriteIdempotent(st: State, s: StripeId, e0: Codeword, e1: Codeword)
    ensures ApplyWrite(ApplyWrite(st, s, e0, e1), s, e0, e1) == ApplyWrite(st, s, e0, e1)
  {
  }

  /** Two queued writes of the same data to the same address: serving the
      second one only removes it from the buffer. */
  lemma RepeatedWriteSkipped(st: State)
    requires st.writeReady && |st.writeQueue.items| >= 2
    requires st.writeQueue.items[0] == st.writeQueue.items[1]
    requires StripeOf(Head(st).address) < NUM_STRIPES
    ensures var r1 := HandleWrite(st);
            && r1.Ok?
            && var r2 := HandleWrite(r1.value);
            && r2.Ok?
            && r2.value == r1.value.(writeQueue := Queue(st.writeQueue.items[2..], st.writeQueue.capacity))
  {
    var req := Head(st);
    var s: StripeId := StripeOf(req.address);
    var e0, e1 := Encode(Hi(req.data)), Encode(Lo(req.data));
    var st1 := st.(writeQueue := Dequeue(st.writeQueue).1);
    var r1 := ApplyWrite(st1, s, e0, e1);
    assert HandleWrite(st) == Ok(r1);
    assert r1.writeQueue.items[0] == req;
    var st2 := r1.(writeQueue := Dequeue(r1.writeQueue).1);
    assert HandleWrite(r1) == Ok(ApplyWrite(st2, s, e0, e1));
    assert st1.writeQueue.items[1..] == st.writeQueue.items[2..];
  }

  /** The scenario of a write that changes only the lower byte of a stored
      value: on a valid stripe holding x, writing y with the same upper byte
      touches the parity block and D1 only, and counts two writes. */
  lemma LowerByteUpdate(st: State, s: StripeId, x: bv16, y: bv16)
    requires st.stripeValid[s]
    requires Stores(st.disks, s, x)
    requires Hi(x) == Hi(y) && Lo(x) != Lo(y)
    ensures var r := ApplyWrite(st, s, Encode(Hi(y)), Encode(Lo(y)));
            var l := Roles(s);
            && Stores(r.disks, s, y)
            && r.disks[l.d0][s] == st.disks[l.d0][s]
            && r.disks[l.parity][s] == XorBlocks(Encode(Hi(y)), Encode(Lo(y)))
            && Total(r.counters) == Total(st.counters) + 2
  {
    DecodeEncode(Lo(x));
    DecodeEncode(Lo(y));
    WriteAmplification(st, s, Encode(Hi(y)), Encode(Lo(y)));
  }
}
